=== FILE: README.md ===
# Asset picker core, modelled in Dafny

A model of the pure logic of the logseq-assets-plus asset picker
(`src/index.tsx`): how a listed file becomes a picker item (display name
with upload stamps removed, extension), how the category tabs filter the
items, how the search effect turns the tab's items, the query and the fuzzy
matcher's answer into the displayed window of at most eight entries, how the
cursor and the Ctrl+Tab cycle move, how a chosen asset becomes the Markdown
link inserted into the page, and how the highlight ranges splice a name into
plain and `<marker>` pieces.

Modules, one concept each:

- `JsString`: `Option` (a value that may be `undefined`) and the JavaScript
  string operations the code relies on, with their edge cases: `lastIndexOf`, `indexOf`, `split(sep)[1]` (non-overlapping
  occurrences), `substring` (clamping and argument swap), `toLowerCase`,
  `trim`, `findIndex`.
- `Normalize`: `normalizeDataItem`. The regex engine's attempt at one
  position of `/[0-9_]{5,}(\.|$)/` (greedy quantifier with backtracking) is
  `MatchAt`; the global replace by `$1` is the left-to-right scan
  `ReplaceFrom`, proved to take at every position exactly the step the
  regex engine takes there (replace the match by its group and resume after
  it, or keep the character), and proved equal to a run-by-run reference
  definition.
- `Category`: `tabTypes`, the tab filter and the Ctrl+Tab successor.
- `Cursor`: `resetActiveIdx`, `upActiveIdx`, `downActiveIdx`.
- `Search`: the search effect. The fuzzy matcher (uFuzzy) is a parameter
  of type `Matcher`, a function from haystack and query to the optional
  `result[1]`; the only thing assumed of it (`Sound`) is that the indices it
  returns point into the haystack it was given.
- `Highlight`: the range-to-markup splicer of the list row.
- `AssetLink`: `makeMdAssetLink`.
- `Picker`: the component state and its event handlers (typing, tab
  clicks, arrow keys, Enter, Escape, Ctrl+Tab, item clicks, outside clicks,
  the end of loading), with the search effect re-run whenever the data, the
  query or the tab changes.

The search effect writes `ranges` onto the item objects it shares with the
data, so `Item` carries its `ranges` and the effect returns the updated data
together with the new list. A query of spaces is non-empty for the row
renderer but blank for the search effect, so such a query shows the first
entries of the tab highlighted with the ranges of an earlier search
(`Picker.BlankQueryKeepsStaleRanges`).

Where a general description of the picker and the code differ, the model
follows the code: the extension keeps its case (it is lower-cased only where
it is compared); the hits are shown in the order of the matcher's `idx`
array, with no ranking of their own; when the matcher gives no `result[1]`
the previous list stays on screen; the video format `mp4` belongs to no tab
(it only makes a link an embed); an empty path is not dropped but gives an
item with an empty name. The stamp is removed only where the pattern finds
it: a run of five or more `[0-9_]` is deleted only when a dot or the end of
the name comes right after it, so a stamp in front of the name, as in
`1693000000000_photo.png`, is kept and the name stays as it is
(`Normalize.KeptStampExample`).

## Model

| member | source | states |
|---|---|---|
| JsString.LastIndexOf | src/index.tsx:55 | -1 exactly when the character is absent; otherwise a position holding it with no later one |
| JsString.IndexOfFrom | src/index.tsx:32 | the first occurrence of the separator at or after the start position, -1 when there is none |
| JsString.SplitSecond | src/index.tsx:32 | `split(sep)[1]` is undefined exactly when the separator does not occur; otherwise it is the text after the first occurrence up to the next occurrence or the end, and holds no occurrence itself |
| JsString.Substring | src/index.tsx:302-303 | for in-range, ordered arguments, `substring` is the slice between them, and never longer than the string |
| JsString.SubstringSymmetric | src/index.tsx:303 | `substring` gives the same text whichever order its two arguments come in |
| JsString.ToLower | src/index.tsx:166 | length is kept and every character is lower-cased on its own |
| JsString.TrimStart | src/index.tsx:173 | the result is a suffix whose dropped prefix is all whitespace and which does not start with whitespace |
| JsString.TrimEnd | src/index.tsx:173 | the result is a prefix whose dropped suffix is all whitespace and which does not end with whitespace |
| JsString.Trim | src/index.tsx:173 | `trim()` gives the slice of the string that starts where the leading whitespace ends, with only whitespace before and after it in the string, and neither starting nor ending with whitespace itself |
| JsString.TrimEmptyIffAllWhitespace | src/index.tsx:173 | `!query.trim()` holds exactly when every character of the query is whitespace |
| JsString.SplitSecondOfJoin | src/index.tsx:32 | for `pre + sep + rest` where `sep` first occurs right after `pre` and not in `rest`, `split(sep)[1]` is `rest` |
| JsString.LastIndexOfJoin | src/index.tsx:55 | the last occurrence of a character is the one after which the string holds no other |
| JsString.FindIndex | src/index.tsx:132 | -1 exactly when the value is absent; otherwise the first position holding it |
| Normalize.RunLen | src/index.tsx:59 | the run of `[0-9_]` counted from a position stops at the end or before a character outside the class, and is empty exactly when the first character is outside it |
| Normalize.RunLenIsRun | src/index.tsx:59 | every character the run counts is of the class `[0-9_]` |
| Normalize.MatchAt | src/index.tsx:59 | a match of the id-run pattern takes at least five characters and its group 1 is at most one character |
| Normalize.MatchAtCases | src/index.tsx:59 | the id-run pattern matches at a position exactly when the whole run there is at least five long and is followed by a dot or the end; the match then consumes the dot and keeps it as group 1 |
| Normalize.BacktrackInsideRun | src/index.tsx:59 | giving back characters of the greedy `{5,}` never finds a match inside a run |
| Normalize.ReplaceFromFollowsRegex | src/index.tsx:59 | at every position the global-replace scan emits what the regex engine's match there is replaced by (its group 1), resuming after the match, or keeps the character where no match starts |
| Normalize.ReplaceFromIsStripRef | src/index.tsx:59 | the global-replace scan from any position equals the run-by-run reference stripping of the rest of the string |
| Normalize.StripIds | src/index.tsx:59 | the replace never makes a name longer; what it removes is stated by Normalize.StripIdsIsStripRef, Normalize.StripIdsKeepsNonId and Normalize.StripIdsIdempotent |
| Normalize.StripIdsIsStripRef | src/index.tsx:59 | the global replace removes exactly the runs of five or more `[0-9_]` that end at a dot or at the end, keeping the dot |
| Normalize.StripIdsIdempotent | src/index.tsx:59 | stripping a stripped name changes nothing |
| Normalize.StripIdsKeepsNonId | src/index.tsx:59 | every character outside `[0-9_]` survives the stripping, in order |
| Normalize.StripRefSplit | src/index.tsx:59 | no run crosses the end of a prefix that is empty or ends outside `[0-9_]`, so such a prefix and the rest are stripped independently |
| Normalize.StampDropped | src/index.tsx:59 | for any stem that is empty or ends outside `[0-9_]` (`v2-notes` included) and any extension (`mp3` included): the stamp of five or more digits or underscores before the dot is deleted, and the stem and the extension are each stripped as if they stood alone; a stem ending in `[0-9_]` is excluded because its last run joins the stamp's |
| Normalize.StripExample | src/index.tsx:59 | `image_1693000000000_0.png` becomes `image.png` |
| Normalize.StripAudioExample | src/index.tsx:59 | `song_1693000000000.mp3` becomes `song.mp3`: the digit of the extension is kept |
| Normalize.DigitStemExample | src/index.tsx:59 | `v2-notes_1693000000000.png` becomes `v2-notes.png`: a lone digit inside the stem is kept |
| Normalize.MergedStampExample | src/index.tsx:59 | `IMG_1234_1693000000000_0.png` becomes `IMG.png`: a stem ending in `[0-9_]` loses its last run together with the stamp |
| Normalize.RunBeforeOtherKept | src/index.tsx:59 | a run of `[0-9_]` of any length followed by a character that is neither in the class nor a dot is kept, and the rest is stripped on its own |
| Normalize.KeptStampExample | src/index.tsx:59 | `1693000000000_photo.png` is left as it is: the stamp is followed by a letter, not by a dot or the end |
| Normalize.DigitLastKept | src/index.tsx:59 | a three-letter extension of two non-id characters and a digit (`mp3`, `mp4`) is left alone by the stripping |
| Normalize.BaseName | src/index.tsx:55 | the display name starts as the suffix of the path after its last slash (the whole path when it has none) and holds no slash |
| Normalize.BaseNameOfComponent | src/index.tsx:55 | the base name of `dir/file` is `file` whenever `file` has no slash |
| Normalize.ExtName | src/index.tsx:60-63 | the extension exists exactly when the name has a dot, is the text after the last dot, has no dot and keeps its case |
| Normalize.ExtNameOfSuffix | src/index.tsx:60-63 | the extension of `stem.ext` is `ext` whenever `ext` has no dot |
| Normalize.NormalizeItem | src/index.tsx:54-64 | the item keeps its path and has no ranges; its original name is the path's last component; its display name is no longer than that and keeps every character outside `[0-9_]` in order; its extension exists exactly when the display name has a dot and is then the text after the last dot |
| Normalize.NormalizeItemFacts | src/index.tsx:54-64 | an item keeps its path, its original name is the path's last component, its display name is that component with the id runs stripped and every other character kept, and its extension exists exactly when the display name has a dot |
| Normalize.NormalizeIdempotent | src/index.tsx:55-63 | normalising a display name again yields the same display name and extension |
| Normalize.NormalizeStamped | src/index.tsx:54-64 | for the path of a stamped upload whose stem is empty or ends outside `[0-9_]` and whose extension the stripping leaves alone (`mp3` and `mp4` included): the original name is the last component, the display name is the stripped stem, a dot and the extension, and the extension is what follows the dot |
| Normalize.NoSlashNonId | src/index.tsx:55-59 | a string holds a slash exactly when its non-id characters do |
| Category.TabTypes | src/index.tsx:22-26 | only `books`, `audios` and `images` have extension lists, and none of them holds `mp4` |
| Category.Keeps | src/index.tsx:164-170 | a tab without an extension list keeps every item; a tab with one drops every item without an extension; an `mp4` item is kept exactly under the tabs without a list |
| Category.Filter | src/index.tsx:163-171 | the filtered list is no longer than the data and each of its entries is an item of the data that the tab keeps; completeness and order are stated by Category.FilterMembers and Category.FilterIsFilterRef |
| Category.FilterIndices | src/index.tsx:163-171 | the kept positions are increasing, each holds an item the tab keeps, and every kept item's position is among them |
| Category.FilterByIndices | src/index.tsx:163-171 | the filtered list is the data at the kept positions, in their order |
| Category.KeptFromIncreasing | src/index.tsx:163-171 | the kept positions are strictly increasing |
| Category.KeptFromComplete | src/index.tsx:163-171 | every position whose item passes the callback is kept |
| Category.FilterIsFilterRef | src/index.tsx:163-171 | the filter equals the item-by-item reference filter, so it keeps the source order |
| Category.FilterMembers | src/index.tsx:163-171 | an item is in the filtered list exactly when it is in the data and its lower-cased extension is on the tab's list (or the tab has none) |
| Category.FilterAll | src/index.tsx:163-171 | on the `all` tab the filter returns the data unchanged |
| Category.NoExtensionDropped | src/index.tsx:166-168 | under a tab with an extension list, an item without an extension is dropped |
| Category.NextTab | src/index.tsx:131-137 | Ctrl+Tab goes all, books, images, audios and back to all; a tab name outside the list goes to all |
| Category.NextTabCycle | src/index.tsx:131-137 | four presses return to the starting tab and no tab is its own successor |
| Cursor.Up | src/index.tsx:88-93 | nothing happens on an empty list; otherwise the cursor moves up by one and from the top wraps to the last entry, staying on the list |
| Cursor.Down | src/index.tsx:95-100 | nothing happens on an empty list; otherwise the cursor moves down by one and from the last entry wraps to the top, staying on the list |
| Cursor.UpDownInverse | src/index.tsx:88-100 | a move down undoes a move up and the other way round, for every cursor on the list |
| Cursor.DownWithoutWrap | src/index.tsx:95-100 | moves down that do not reach the end advance the cursor by their number |
| Cursor.DownTimesAdd | src/index.tsx:95-100 | consecutive series of moves down compose |
| Cursor.FullRound | src/index.tsx:95-100 | as many moves down as the list is long bring the cursor back |
| Search.AttachRanges | src/index.tsx:191-194 | the range assignments change only `ranges`, only on the hit items, and each hit item ends with the ranges of its last hit |
| Search.LastWriteThroughIndices | src/index.tsx:191-194 | a hit not repeated later in `idx` is not repeated later among the data positions it maps to |
| Search.Names | src/index.tsx:187 | the haystack holds the display names of the tab's items, in order |
| Search.Take | src/index.tsx:174 | `slice(0, n)` is the prefix of length min(n, length) |
| Search.ShowHits | src/index.tsx:190-195 | the window holds min(8, hits) entries, the cursor is reset and the data keeps its length |
| Search.ShowHitsItems | src/index.tsx:190-195 | entry n of the window is the tab item at `idx[n]`, and the data changes only in `ranges` |
| Search.ShowHitsRanges | src/index.tsx:190-195 | an entry whose hit is not repeated later in `idx` carries that hit's ranges |
| Search.RunSearch | src/index.tsx:160-196 | the cursor is reset; a blank query shows the first min(8, n) items of the tab and leaves the data alone; otherwise no matcher info keeps the previous list, and info gives the window of hits in `idx` order with their ranges |
| Highlight.Piece | src/index.tsx:301-304 | piece n is marked exactly when n is odd; with boundaries inside the name, piece 0 is the name up to the first boundary and piece n the stretch from boundary n-1 to boundary n |
| Highlight.Join | src/index.tsx:313 | the joined markup equals the text of the pieces when no piece is marked, and is longer than it when one is |
| Highlight.Segments | src/index.tsx:301-311 | one piece per boundary, plus the tail when the last boundary is before the end |
| Highlight.HighlightName | src/index.tsx:300-314 | without ranges, with empty ranges or with an empty query the name is shown unchanged |
| Highlight.PrefixText | src/index.tsx:301-305 | with well-formed boundaries, the first n+1 pieces spell the name up to boundary n |
| Highlight.SegmentsText | src/index.tsx:300-313 | with well-formed boundaries, the pieces without markers give back the name |
| Highlight.SegmentsSpellName | src/index.tsx:300-313 | with non-decreasing boundaries inside the name, piece 0 is the name up to the first boundary, piece n the stretch between boundaries n-1 and n, marked exactly when n is odd, the tail is added exactly when the last boundary is before the end, and the pieces without markers give back the name |
| AssetLink.IsRich | src/index.tsx:35-36 | a rich extension is present and at least three characters long; which extensions are rich is stated by AssetLink.EmbedIffRich, AssetLink.RichIgnoresCase and AssetLink.ListedFormatsRich |
| AssetLink.RichIgnoresCase | src/index.tsx:35-36 | an extension is rich exactly when its lower-cased form is, so `PNG` embeds like `png` |
| AssetLink.ListedFormatsRich | src/index.tsx:35-36 | every format on the four lists, written as listed, is rich |
| AssetLink.MakeMdAssetLink | src/index.tsx:28-39 | no link exactly when the name or the path is empty or the path has nothing after its first `/assets/`; otherwise `[name](assets/<rest>)`, with `!` for a rich extension |
| AssetLink.EmbedIffRich | src/index.tsx:35-38 | a link starts with `!` exactly when the lower-cased extension is one of png, jpg, jpeg, webp, gif, pdf, mp3, mp4 |
| AssetLink.LinkOfAssetPath | src/index.tsx:32-38 | for `prefix/assets/rel` with no other `/assets/` in the way, the link points at `assets/rel` |
| Picker.Refresh | src/index.tsx:160-196 | the search effect resets the cursor, keeps visibility, query and tab, and keeps the list within the window |
| Picker.Settle | src/index.tsx:196 | the effect runs exactly when the query or the tab changed: then the session is the search's outcome for the new query and tab, with the cursor reset; otherwise it is the handler's state unchanged |
| Picker.TypingRunsSearch | src/index.tsx:160-196 | typing a new query (the handler at 247-249) shows the search's outcome for that query over the current tab and the previous list, and puts the cursor at the top |
| Picker.TabClickRunsSearch | src/index.tsx:160-196 | clicking another tab (the handlers at 256-278) shows the search's outcome for the current query over that tab, and puts the cursor at the top |
| Picker.CloseUI | src/index.tsx:80-85 | closing hides the picker and goes back to the `all` tab, leaving query, data, list and cursor alone |
| Picker.Select | src/index.tsx:198-213 | in the full-feature pane the file is opened by its `file://` URL; otherwise the picker closes, the query is cleared and the item's link is inserted |
| Picker.Active | src/index.tsx:242 | the entry under the cursor exists exactly when the cursor is on the list |
| Picker.Step | src/index.tsx:108-322 | the handlers of the component (end of loading at 108, keys at 115-139 and 224-249, the visibility notification at 151-153, tab clicks at 256-278, item clicks at 319-322): every event keeps the cursor on the list (or at 0 on an empty list) and the list within the window; a change of query, tab or data resets the cursor |
| Picker.StepEvents | src/index.tsx:115-139 | Escape clears a non-empty query and otherwise closes the picker on the `all` tab; Ctrl+Tab moves to the next tab; an outside click closes; the host's notification shows the picker and changes nothing else |
| Picker.Mount | src/index.tsx:150-157 | after mounting the picker is visible on the `all` tab with an empty list and the cursor at 0 |
| Picker.ArrowsCancel | src/index.tsx:224-236 | arrow down then arrow up, or the reverse, leaves the state as it was |
| Picker.ArrowsOnEmptyList | src/index.tsx:88-100 | on an empty list the arrow keys change nothing |
| Picker.CtrlTabRoundTrip | src/index.tsx:131-137 | four Ctrl+Tab presses bring the tab back |
| Picker.EnterInsertsActive | src/index.tsx:239-245 | Enter outside the full-feature pane inserts the link of the entry under the cursor and closes the picker with an empty query |
| Picker.ClickActsAsEnter | src/index.tsx:319-322 | clicking an entry asks the host for what Enter asks with the cursor on that entry |
| Picker.BlankQueryKeepsStaleRanges | src/index.tsx:173-174 | a query of spaces shows the tab's first entry with the ranges left on it by an earlier search, and highlights them |

## Left out

- Size formatting (src/index.tsx:65-73): floating-point division, `toFixed` and a string-to-number comparison; `size` is not part of `Item`.
- Loading (src/index.tsx:103-110): the `preparing` flag, the awaited host listing and the delay; the model has one `Loaded` event carrying the listed paths.
- Tab names outside the strip: the active tab only ever holds `all`, `books`, `images` or `audios` (src/index.tsx:50, :83, :137, :257-275). A `Tab` outside them stands for a name with no property on `Object.prototype`. For `constructor`, `toString` or `__proto__`, `tabTypes[tab]` is truthy and the filter callback (src/index.tsx:166) would throw, which the model does not reproduce.
- Records whose `path` is missing or not a string: paths are strings, so the `typeof it.name === 'string'` guard always holds.
- The fuzzy matcher (src/index.tsx:178-187): its options, tokenisation, ranking and range computation; it is the `Matcher` parameter, and nothing is proved about relevance or about the exact-name-first order.
- A matcher answer whose `idx` is undefined: `MatchInfo` always carries an index list.
- Host calls (`hideMainUI`, `showMainUI`, `insertAtEditingCursor`, `openExternal`, `showItemInFolder`, command and slash registration): hidden and shown are the `visible` field, and opening and inserting are the returned `Action`.
- The `as-full` body class (src/index.tsx:78, :84, :370-371): a boolean parameter of `Step`; its removal by `closeUI` and the cursor-position query of `showPicker` are not modelled.
- DOM and presentation: listener wiring, the rendered row (upper-cased extension, size, fixed date text), the loading and "No results" rows, theme variables and positioning (src/index.tsx:215-348, :359-450).
- JsString.ToLower: lower-cases the ASCII letters only; the only non-ASCII character that `toLowerCase` maps into ASCII is the Kelvin sign (to `k`), and no extension on the lists holds a `k`, so membership in those lists is unaffected.
- Positions are counted in characters, not UTF-16 code units; names outside the Basic Multilingual Plane would give the matcher's ranges different offsets.
- Normalize.StripIds: its own contract only bounds the length; what it computes is stated by Normalize.StripIdsIsStripRef, Normalize.StripIdsKeepsNonId and Normalize.StripIdsIdempotent.
- Category.Filter: its own contract gives the bound and that every entry is a kept item of the data; that every kept item is there, in the data's order, is stated by Category.FilterMembers and Category.FilterIsFilterRef.
- AssetLink.IsRich: its own contract only says a rich extension is present and at least three characters long; which extensions are rich is stated by AssetLink.EmbedIffRich, AssetLink.RichIgnoresCase and AssetLink.ListedFormatsRich.
- Normalize.ReplaceFrom: its own contract only bounds the length; what it computes is stated by Normalize.ReplaceFromFollowsRegex and Normalize.ReplaceFromIsStripRef.
- Search.ShowHits: its own contract gives the sizes only; what the window and the data hold is stated by Search.ShowHitsItems and Search.ShowHitsRanges.

=== FILE: assetlink.dfy ===
/** `makeMdAssetLink` of src/index.tsx: the Markdown text inserted for a chosen
    asset, `[name](assets/<rest>)`, made an embed with a leading `!` for the
    rich-media extensions. */
module AssetLink {
  import opened JsString
  import Category

  const AssetsDir: string := "/assets/"

  /** The extensions that are embedded: images, books, audios and videos. */
  const RichFormats: seq<string> :=
    Category.ImageFormats + Category.BookFormats + Category.AudioFormats + Category.VideoFormats

  /** `extname?.toLowerCase()` is one of the rich formats. */
  function IsRich(extname: Option<string>): (b: bool)
    ensures b ==> extname.Some? && |extname.value| >= 3
  {
    extname.Some? && ToLower(extname.value) in RichFormats
  }

  /** The test ignores case: an extension is rich exactly when its lower-cased
      form is. */
  lemma RichIgnoresCase(ext: string)
    ensures IsRich(Some(ext)) <==> IsRich(Some(ToLower(ext)))
  {
    ToLowerIdempotent(ext);
  }

  /** Every listed format, as written, is rich. */
  lemma ListedFormatsRich(ext: string)
    requires ext in RichFormats
    ensures IsRich(Some(ext))
  {
    assert ext in ["png", "jpg", "jpeg", "webp", "gif", "pdf", "mp3", "mp4"];
    ToLowerOfLower(ext);
  }

  /** The link for an asset, or undefined when the name or the path is empty
      or the path has nothing after its first `/assets/` (up to the next one
      found after it). */
  function MakeMdAssetLink(name: string, path: string, extname: Option<string>): (r: Option<string>)
    ensures r.None? <==> name == "" || path == "" || SplitSecond(path, AssetsDir) in {None, Some("")}
    ensures r.Some? ==>
      var rest := SplitSecond(path, AssetsDir).value;
      && !Contains(rest, AssetsDir)
      && r.value == (if IsRich(extname) then "!" else "") + "[" + name + "](assets/" + rest + ")"
  {
    if name == "" || path == "" then None
    else
      match SplitSecond(path, AssetsDir)
      case None => None
      case Some(rest) =>
        if rest == "" then None
        else
          var isSupportedRichExt := IsRich(extname);
          Some((if isSupportedRichExt then "!" else "") + "[" + name + "](assets/" + rest + ")")
  }

  /** The embed marker follows the extension exactly: a link starts with `!`
      exactly when the lower-cased extension is a rich format. */
  lemma EmbedIffRich(name: string, path: string, extname: Option<string>)
    requires MakeMdAssetLink(name, path, extname).Some?
    ensures var link := MakeMdAssetLink(name, path, extname).value;
      (|link| > 0 && link[0] == '!') <==> IsRich(extname)
  {
  }

  /** For a path made of a prefix, the assets directory and a relative path
      (none of them holding another `/assets/` that the split would see), the
      link points at exactly that relative path. */
  lemma LinkOfAssetPath(name: string, prefix: string, rel: string, extname: Option<string>)
    requires name != "" && rel != ""
    requires !Contains(prefix + AssetsDir[..|AssetsDir| - 1], AssetsDir)
    requires !Contains(rel, AssetsDir)
    ensures MakeMdAssetLink(name, prefix + AssetsDir + rel, extname)
      == Some((if IsRich(extname) then "!" else "") + "[" + name + "](assets/" + rel + ")")
  {
    SplitSecondOfJoin(prefix, AssetsDir, rel);
    assert |prefix + AssetsDir + rel| > 0;
  }
}

=== FILE: category.dfy ===
/** The category tabs (`tabTypes`, the `tabs` list and the Ctrl+Tab cycle in
    src/index.tsx).  The active tab is a string, as in the source, so a tab
    name outside the strip is representable; the picker itself only ever
    holds the four strip names, and a name outside them here stands for one
    that is not a property of JavaScript's `Object.prototype`. */
module Category {
  import opened JsString
  import opened Normalize

  type Tab = string

  /** The tab strip, in Ctrl+Tab order. */
  const Tabs: seq<Tab> := ["all", "books", "images", "audios"]

  const ImageFormats: seq<string> := ["png", "jpg", "jpeg", "webp", "gif"]
  const BookFormats: seq<string> := ["pdf"]
  const VideoFormats: seq<string> := ["mp4"]
  const AudioFormats: seq<string> := ["mp3"]

  /** `tabTypes[tab]`: the extensions a tab admits; `all` has no entry and so
      admits everything, as does any other name the picker can hold. */
  function TabTypes(tab: Tab): (r: Option<seq<string>>)
    ensures r.None? <==> tab !in {"books", "audios", "images"}
    ensures r.Some? ==> "mp4" !in r.value
  {
    if tab == "books" then Some(BookFormats)
    else if tab == "audios" then Some(AudioFormats)
    else if tab == "images" then Some(ImageFormats)
    else None
  }

  /** The filter callback: an item stays unless the tab has an extension list
      and the item's lower-cased extension is not on it (an item without an
      extension is never on it). */
  function Keeps(tab: Tab, it: Item): (b: bool)
    ensures tab !in {"books", "audios", "images"} ==> b
    ensures b && tab in {"books", "audios", "images"} ==> it.extname.Some?
    ensures it.extname.Some? && ToLower(it.extname.value) == "mp4" ==> (b <==> tab !in {"books", "audios", "images"})
  {
    match TabTypes(tab)
    case None => true
    case Some(exts) => it.extname.Some? && ToLower(it.extname.value) in exts
  }

  /** The callback's answer for every item. */
  function Verdicts(data: seq<Item>, tab: Tab): (keep: seq<bool>)
    ensures |keep| == |data|
    ensures forall j :: 0 <= j < |data| ==> keep[j] == Keeps(tab, data[j])
  {
    seq(|data|, j requires 0 <= j < |data| => Keeps(tab, data[j]))
  }

  /** Positions from `i` on whose verdict is true, in increasing order. */
  function KeptFrom(keep: seq<bool>, i: nat): (ix: seq<nat>)
    requires i <= |keep|
    ensures |ix| <= |keep| - i
    ensures forall k :: 0 <= k < |ix| ==> i <= ix[k] < |keep| && keep[ix[k]]
    decreases |keep| - i
  {
    if i == |keep| then []
    else if keep[i] then [i] + KeptFrom(keep, i + 1)
    else KeptFrom(keep, i + 1)
  }

  /** The kept positions are strictly increasing. */
  lemma {:induction false} KeptFromIncreasing(keep: seq<bool>, i: nat)
    requires i <= |keep|
    ensures forall k, l :: 0 <= k < l < |KeptFrom(keep, i)| ==> KeptFrom(keep, i)[k] < KeptFrom(keep, i)[l]
    decreases |keep| - i
  {
    if i < |keep| {
      KeptFromIncreasing(keep, i + 1);
      if keep[i] {
        var rest := KeptFrom(keep, i + 1);
        var ix := KeptFrom(keep, i);
        assert ix == [i] + rest;
        forall k, l | 0 <= k < l < |ix|
          ensures ix[k] < ix[l]
        {
          assert ix[l] == rest[l - 1] && i < rest[l - 1];
          if k > 0 {
            assert ix[k] == rest[k - 1] && rest[k - 1] < rest[l - 1];
          }
        }
      } else {
        assert KeptFrom(keep, i) == KeptFrom(keep, i + 1);
      }
    }
  }

  /** Every position from `i` on whose verdict is true is among the kept
      positions. */
  lemma {:induction false} KeptFromComplete(keep: seq<bool>, i: nat)
    requires i <= |keep|
    ensures forall j :: i <= j < |keep| && keep[j] ==> j in KeptFrom(keep, i)
    decreases |keep| - i
  {
    if i < |keep| {
      KeptFromComplete(keep, i + 1);
      var rest := KeptFrom(keep, i + 1);
      var ix := KeptFrom(keep, i);
      if keep[i] {
        assert ix == [i] + rest;
        forall j | i <= j < |keep| && keep[j]
          ensures j in ix
        {
          if j == i {
            assert ix[0] == i;
          } else {
            assert j in rest;
          }
        }
      } else {
        assert ix == rest;
      }
    }
  }

  /** Positions of the items the tab keeps, in increasing order. */
  function FilterIndices(data: seq<Item>, tab: Tab): (ix: seq<nat>)
    ensures |ix| <= |data|
    ensures forall k :: 0 <= k < |ix| ==> ix[k] < |data| && Keeps(tab, data[ix[k]])
    ensures forall k, l :: 0 <= k < l < |ix| ==> ix[k] < ix[l]
    ensures forall j :: 0 <= j < |data| && Keeps(tab, data[j]) ==> j in ix
  {
    KeptFromIncreasing(Verdicts(data, tab), 0);
    KeptFromComplete(Verdicts(data, tab), 0);
    KeptFrom(Verdicts(data, tab), 0)
  }

  /** The entries at the positions kept from `i` on. */
  function PickFrom<T>(xs: seq<T>, keep: seq<bool>, i: nat): seq<T>
    requires |keep| == |xs| && i <= |xs|
  {
    var ix := KeptFrom(keep, i);
    seq(|ix|, k requires 0 <= k < |ix| => xs[ix[k]])
  }

  /** `data.filter(...)` for the active tab: the kept items, in source order. */
  function Filter(data: seq<Item>, tab: Tab): (r: seq<Item>)
    ensures |r| <= |data|
    ensures forall k :: 0 <= k < |r| ==> r[k] in data && Keeps(tab, r[k])
  {
    var ix := KeptFrom(Verdicts(data, tab), 0);
    assert forall k :: 0 <= k < |ix| ==> ix[k] < |data| && Keeps(tab, data[ix[k]]);
    PickFrom(data, Verdicts(data, tab), 0)
  }

  /** The filtered list is the data at the kept positions. */
  lemma FilterByIndices(data: seq<Item>, tab: Tab)
    ensures |Filter(data, tab)| == |FilterIndices(data, tab)|
    ensures forall k :: 0 <= k < |FilterIndices(data, tab)| ==>
      Filter(data, tab)[k] == data[FilterIndices(data, tab)[k]]
  {
  }

  /** Reference definition of the filter, item by item. */
  function FilterRef(data: seq<Item>, tab: Tab): seq<Item>
    decreases |data|
  {
    if |data| == 0 then []
    else (if Keeps(tab, data[0]) then [data[0]] else []) + FilterRef(data[1..], tab)
  }

  /** The position-based filter and the item-by-item filter agree. */
  lemma FilterIsFilterRef(data: seq<Item>, tab: Tab)
    ensures Filter(data, tab) == FilterRef(data, tab)
  {
    PickFromIsFilterRef(data, tab, 0);
    assert data[0..] == data;
  }

  /** The same on every suffix. */
  lemma {:induction false} PickFromIsFilterRef(data: seq<Item>, tab: Tab, i: nat)
    requires i <= |data|
    ensures PickFrom(data, Verdicts(data, tab), i) == FilterRef(data[i..], tab)
    decreases |data| - i
  {
    if i < |data| {
      var keep := Verdicts(data, tab);
      PickFromIsFilterRef(data, tab, i + 1);
      if keep[i] {
        PickFromKept(data, keep, i);
      } else {
        PickFromSkipped(data, keep, i);
      }
      assert data[i..][0] == data[i] && data[i..][1..] == data[i + 1..];
    }
  }

  /** A kept position contributes its entry in front of the rest. */
  lemma PickFromKept<T>(xs: seq<T>, keep: seq<bool>, i: nat)
    requires |keep| == |xs| && i < |xs| && keep[i]
    ensures PickFrom(xs, keep, i) == [xs[i]] + PickFrom(xs, keep, i + 1)
  {
    var rest := KeptFrom(keep, i + 1);
    var ix := KeptFrom(keep, i);
    assert ix == [i] + rest;
    var a := PickFrom(xs, keep, i);
    var b := PickFrom(xs, keep, i + 1);
    assert |a| == 1 + |b|;
    forall k | 0 <= k < |a|
      ensures a[k] == ([xs[i]] + b)[k]
    {
      if k > 0 {
        assert ix[k] == rest[k - 1];
      }
    }
  }

  /** A dropped position contributes nothing. */
  lemma PickFromSkipped<T>(xs: seq<T>, keep: seq<bool>, i: nat)
    requires |keep| == |xs| && i < |xs| && !keep[i]
    ensures PickFrom(xs, keep, i) == PickFrom(xs, keep, i + 1)
  {
    assert KeptFrom(keep, i) == KeptFrom(keep, i + 1);
  }

  /** The filtered list holds exactly the items the tab keeps. */
  lemma FilterMembers(data: seq<Item>, tab: Tab, it: Item)
    ensures it in Filter(data, tab) <==> it in data && Keeps(tab, it)
  {
    var ix := FilterIndices(data, tab);
    var r := Filter(data, tab);
    if it in data && Keeps(tab, it) {
      var j :| 0 <= j < |data| && data[j] == it;
      var k :| 0 <= k < |ix| && ix[k] == j;
      assert r[k] == it;
    }
  }

  /** On `all` the filter is the identity. */
  lemma {:induction false} FilterAll(data: seq<Item>)
    ensures Filter(data, "all") == data
    decreases |data|
  {
    FilterIsFilterRef(data, "all");
    FilterRefAll(data);
  }

  lemma {:induction false} FilterRefAll(data: seq<Item>)
    ensures FilterRef(data, "all") == data
    decreases |data|
  {
    if |data| > 0 {
      FilterRefAll(data[1..]);
    }
  }

  /** Under a tab with an extension list, an item without an extension is
      always dropped. */
  lemma NoExtensionDropped(data: seq<Item>, tab: Tab, it: Item)
    requires TabTypes(tab).Some? && it.extname.None?
    ensures it !in Filter(data, tab)
  {
    FilterMembers(data, tab, it);
  }

  /** The Ctrl+Tab handler: the tab after the active one, wrapping from the
      last to the first; a name not in the list (findIndex -1) goes to the
      first tab. */
  function NextTab(tab: Tab): (r: Tab)
    ensures r in Tabs
    ensures tab == "all" ==> r == "books"
    ensures tab == "books" ==> r == "images"
    ensures tab == "images" ==> r == "audios"
    ensures tab == "audios" ==> r == "all"
    ensures tab !in Tabs ==> r == "all"
  {
    var activeIdx := FindIndex(Tabs, tab);
    var toIdx := activeIdx + 1;
    var toIdx' := if toIdx >= |Tabs| then 0 else toIdx;
    var toIdx'' := if toIdx' < 0 then |Tabs| - 1 else toIdx';
    Tabs[toIdx'']
  }

  /** Four presses of Ctrl+Tab return to any tab of the strip, and no tab is
      its own successor. */
  lemma NextTabCycle(tab: Tab)
    requires tab in Tabs
    ensures NextTab(NextTab(NextTab(NextTab(tab)))) == tab
    ensures NextTab(tab) != tab
  {
  }
}

=== FILE: cursor.dfy ===
/** The active index over the displayed list (`resetActiveIdx`,
    `upActiveIdx`, `downActiveIdx` in src/index.tsx). */
module Cursor {

  /** `resetActiveIdx`. */
  const Reset: int := 0

  /** `upActiveIdx`: one up, wrapping from the top to the last entry; nothing
      happens on an empty list. */
  function Up(cursor: int, len: nat): (r: int)
    ensures len == 0 ==> r == cursor
    ensures len > 0 && cursor <= len ==> 0 <= r < len
    ensures len > 0 && cursor == 0 ==> r == len - 1
    ensures len > 0 && 0 < cursor <= len ==> r == cursor - 1
  {
    if len == 0 then cursor
    else
      var toIdx := cursor - 1;
      if toIdx < 0 then len - 1 else toIdx
  }

  /** `downActiveIdx`: one down, wrapping from the last entry to the top;
      nothing happens on an empty list. */
  function Down(cursor: int, len: nat): (r: int)
    ensures len == 0 ==> r == cursor
    ensures len > 0 && -1 <= cursor ==> 0 <= r < len
    ensures len > 0 && cursor == len - 1 ==> r == 0
    ensures len > 0 && -1 <= cursor < len - 1 ==> r == cursor + 1
  {
    if len == 0 then cursor
    else
      var toIdx := cursor + 1;
      if toIdx >= len then 0 else toIdx
  }

  /** A move down undoes a move up and the other way round, for every cursor
      on the list. */
  lemma UpDownInverse(cursor: int, len: nat)
    requires 0 <= cursor < len
    ensures Down(Up(cursor, len), len) == cursor
    ensures Up(Down(cursor, len), len) == cursor
  {
  }

  /** `k` moves down from a cursor on the list. */
  function DownTimes(cursor: int, len: nat, k: nat): int
    decreases k
  {
    if k == 0 then cursor else Down(DownTimes(cursor, len, k - 1), len)
  }

  /** Without reaching the end, `k` moves down advance the cursor by `k`. */
  lemma {:induction false} DownWithoutWrap(cursor: int, len: nat, k: nat)
    requires 0 <= cursor && cursor + k < len
    ensures DownTimes(cursor, len, k) == cursor + k
    decreases k
  {
    if k > 0 {
      DownWithoutWrap(cursor, len, k - 1);
    }
  }

  /** Moves down compose. */
  lemma {:induction false} DownTimesAdd(cursor: int, len: nat, a: nat, b: nat)
    ensures DownTimes(cursor, len, a + b) == DownTimes(DownTimes(cursor, len, a), len, b)
    decreases b
  {
    if b > 0 {
      DownTimesAdd(cursor, len, a, b - 1);
    }
  }

  /** A full round of `len` moves down returns to where it started: the
      first `len - cursor` moves reach the top again, the rest walk back. */
  lemma FullRound(cursor: int, len: nat)
    requires 0 <= cursor < len
    ensures DownTimes(cursor, len, len) == cursor
  {
    var a := len - cursor;
    DownWithoutWrap(cursor, len, a - 1);
    assert DownTimes(cursor, len, a) == 0;
    DownWithoutWrap(0, len, cursor);
    DownTimesAdd(cursor, len, a, cursor);
  }
}

=== FILE: highlight.dfy ===
/** The highlight splicer of the list row in src/index.tsx: the flat list of
    range boundaries cuts the display name into alternating plain and marked
    pieces, and the marked ones are wrapped in `<marker>` tags. */
module Highlight {
  import opened JsString

  /** One piece of the spliced name. */
  datatype Segment = Plain(text: string) | Marked(text: string)

  const OpenTag: string := "<marker>"
  const CloseTag: string := "</marker>"

  /** The callback of `ranges.map`: piece `n` runs from boundary `n - 1` (the
      start of the name for the first) to boundary `n`, and odd pieces are
      marked. */
  function Piece(name: string, ranges: seq<int>, n: nat): (r: Segment)
    requires n < |ranges|
    ensures r.Marked? <==> n % 2 == 1
    ensures n == 0 && 0 <= ranges[0] <= |name| ==> r.text == name[..ranges[0]]
    ensures n > 0 && 0 <= ranges[n - 1] <= ranges[n] <= |name| ==> r.text == name[ranges[n - 1]..ranges[n]]
  {
    if n == 0 then Plain(Substring(name, 0, ranges[0]))
    else
      var ret := Substring(name, ranges[n - 1], ranges[n]);
      if n % 2 == 0 then Plain(ret) else Marked(ret)
  }

  /** The mapped pieces, and the tail after the last boundary when that
      boundary is before the end of the name. */
  function Segments(name: string, ranges: seq<int>): (r: seq<Segment>)
    requires |ranges| > 0
    ensures |ranges| <= |r| <= |ranges| + 1
    ensures |r| == |ranges| + 1 <==> ranges[|ranges| - 1] < |name|
    ensures |r| == |ranges| + 1 ==> r[|ranges|] == Plain(Substring(name, ranges[|ranges| - 1], |name|))
  {
    var mapped := seq(|ranges|, n requires 0 <= n < |ranges| => Piece(name, ranges, n));
    var lastIdx := ranges[|ranges| - 1];
    if lastIdx < |name| then mapped + [Plain(Substring(name, lastIdx, |name|))] else mapped
  }

  /** The markup of one piece. */
  function Render(seg: Segment): string {
    match seg
    case Plain(t) => t
    case Marked(t) => OpenTag + t + CloseTag
  }

  /** `pieces.join('')`. */
  function Join(segs: seq<Segment>): (r: string)
    ensures |r| >= |Text(segs)|
    ensures (forall k :: 0 <= k < |segs| ==> segs[k].Plain?) ==> r == Text(segs)
    ensures (exists k :: 0 <= k < |segs| && segs[k].Marked?) ==> |r| > |Text(segs)|
    decreases |segs|
  {
    if |segs| == 0 then "" else Join(segs[..|segs| - 1]) + Render(segs[|segs| - 1])
  }

  /** The text of the pieces with the markers left out. */
  function Text(segs: seq<Segment>): string
    decreases |segs|
  {
    if |segs| == 0 then "" else Text(segs[..|segs| - 1]) + segs[|segs| - 1].text
  }

  /** The row's name markup: spliced when the item has a non-empty range list
      and the query is non-empty, the plain name otherwise. */
  function HighlightName(name: string, ranges: Option<seq<int>>, query: string): (r: string)
    ensures ranges.None? || ranges == Some([]) || query == "" ==> r == name
  {
    if ranges.Some? && |ranges.value| > 0 && |query| > 0 then Join(Segments(name, ranges.value))
    else name
  }

  /** Boundaries the matcher hands out: non-decreasing and inside the name. */
  predicate WellFormed(name: string, ranges: seq<int>) {
    && (forall k :: 0 <= k < |ranges| ==> 0 <= ranges[k] <= |name|)
    && (forall k :: 0 < k < |ranges| ==> ranges[k - 1] <= ranges[k])
  }

  /** With well-formed boundaries, the first `n + 1` pieces spell the name up
      to boundary `n`. */
  lemma {:induction false} PrefixText(name: string, ranges: seq<int>, n: nat)
    requires WellFormed(name, ranges) && n < |ranges|
    ensures Text(Segments(name, ranges)[..n + 1]) == name[..ranges[n]]
    decreases n
  {
    var segs := Segments(name, ranges);
    var pre := segs[..n + 1];
    assert pre[..n] == segs[..n];
    if n == 0 {
      assert Text(pre[..0]) == "";
    } else {
      PrefixText(name, ranges, n - 1);
      assert name[..ranges[n]] == name[..ranges[n - 1]] + name[ranges[n - 1]..ranges[n]];
    }
  }

  /** With well-formed boundaries, the pieces are the stretches between
      consecutive boundaries, marked exactly at odd positions, and with the
      markers removed they give back the name. */
  lemma SegmentsSpellName(name: string, ranges: seq<int>)
    requires |ranges| > 0 && WellFormed(name, ranges)
    ensures var segs := Segments(name, ranges);
      && segs[0] == Plain(name[..ranges[0]])
      && (forall n :: 0 < n < |ranges| ==>
            segs[n].text == name[ranges[n - 1]..ranges[n]] && (segs[n].Marked? <==> n % 2 == 1))
      && (|segs| == |ranges| + 1 <==> ranges[|ranges| - 1] < |name|)
      && (|segs| == |ranges| + 1 ==> segs[|ranges|] == Plain(name[ranges[|ranges| - 1]..]))
      && Text(segs) == name
  {
    var segs := Segments(name, ranges);
    PieceAt(name, ranges, 0);
    forall n | 0 < n < |ranges|
      ensures segs[n].text == name[ranges[n - 1]..ranges[n]] && (segs[n].Marked? <==> n % 2 == 1)
    {
      PieceAt(name, ranges, n);
    }
    SegmentsText(name, ranges);
  }

  /** Piece `n` of a well-formed list is the stretch before boundary `n`. */
  lemma PieceAt(name: string, ranges: seq<int>, n: nat)
    requires WellFormed(name, ranges) && n < |ranges|
    ensures Segments(name, ranges)[n] == Piece(name, ranges, n)
    ensures n == 0 ==> Piece(name, ranges, n) == Plain(name[..ranges[0]])
    ensures n > 0 ==>
      && Piece(name, ranges, n).text == name[ranges[n - 1]..ranges[n]]
      && (Piece(name, ranges, n).Marked? <==> n % 2 == 1)
  {
  }

  /** With the markers removed, the pieces of a well-formed list give back
      the name. */
  lemma SegmentsText(name: string, ranges: seq<int>)
    requires |ranges| > 0 && WellFormed(name, ranges)
    ensures Text(Segments(name, ranges)) == name
  {
    var segs := Segments(name, ranges);
    var last := |ranges| - 1;
    PrefixText(name, ranges, last);
    if ranges[last] < |name| {
      assert segs[..last + 1] == segs[..|segs| - 1];
      assert name == name[..ranges[last]] + name[ranges[last]..];
    } else {
      assert segs[..last + 1] == segs;
      assert name[..ranges[last]] == name;
    }
  }
}

=== FILE: jsstring.dfy ===
/** The JavaScript string and array primitives the picker relies on, each with
    the meaning the ECMAScript library gives it.  A string position here is a
    character position; JavaScript counts UTF-16 code units, which differ only
    for characters outside the Basic Multilingual Plane. */
module JsString {

  /** A JavaScript value that may be `undefined`: an optional chain such as
      `split(sep)?.[1]` or `it.extname?.toLowerCase()` reads `None` where the
      source reads `undefined`. */
  datatype Option<+T> = None | Some(value: T)

  /** `s.lastIndexOf(c)` for a one-character needle: the last position holding
      `c`, or -1 when `c` does not occur. */
  function LastIndexOf(s: string, c: char): (r: int)
    ensures -1 <= r < |s|
    ensures r == -1 <==> c !in s
    ensures r >= 0 ==> s[r] == c && forall k :: r < k < |s| ==> s[k] != c
  {
    if |s| == 0 then -1
    else if s[|s| - 1] == c then |s| - 1
    else
      var r := LastIndexOf(s[..|s| - 1], c);
      assert forall k :: 0 <= k < |s| - 1 ==> s[..|s| - 1][k] == s[k];
      r
  }

  /** The last `c` of a string whose tail after some `c` holds no `c` is
      that one. */
  lemma LastIndexOfJoin(pre: string, c: char, post: string)
    requires c !in post
    ensures LastIndexOf(pre + [c] + post, c) == |pre|
  {
    var x := pre + [c] + post;
    NoneAfter(pre, c, post);
    assert x[|pre|] == c;
    var k := LastIndexOf(x, c);
    assert k >= 0 && x[k] == c;
    assert k >= |pre|;
  }

  /** No `c` follows the one between `pre` and a `post` without `c`. */
  lemma NoneAfter(pre: string, c: char, post: string)
    requires c !in post
    ensures forall j :: |pre| < j < |pre + [c] + post| ==> (pre + [c] + post)[j] != c
  {
    var x := pre + [c] + post;
    forall j | |pre| < j < |x|
      ensures x[j] != c
    {
      assert x[j] == post[j - |pre| - 1];
    }
  }

  /** `sep` occurs in `s` starting at position `k`. */
  predicate OccursAt(s: string, sep: string, k: int) {
    0 <= k && k + |sep| <= |s| && s[k..k + |sep|] == sep
  }

  /** `sep` occurs somewhere in `s`. */
  ghost predicate Contains(s: string, sep: string) {
    exists k :: OccursAt(s, sep, k)
  }

  /** `s.indexOf(sep, from)`: the first occurrence of `sep` at or after `from`,
      or -1 when there is none. */
  function IndexOfFrom(s: string, sep: string, from: nat): (r: int)
    ensures r == -1 || (from <= r && OccursAt(s, sep, r))
    ensures forall k :: from <= k && (r == -1 || k < r) ==> !OccursAt(s, sep, k)
    decreases |s| - from
  {
    if from + |sep| > |s| then -1
    else if s[from..from + |sep|] == sep then from
    else IndexOfFrom(s, sep, from + 1)
  }

  /** `s.split(sep)[1]`: JavaScript splits at the non-overlapping occurrences of
      `sep` found from left to right, so the second piece runs from the end of
      the first occurrence to the next occurrence found after it (or to the
      end).  It is `undefined` when `sep` does not occur. */
  function SplitSecond(s: string, sep: string): (r: Option<string>)
    requires |sep| > 0
    ensures r.None? <==> !Contains(s, sep)
    ensures r.Some? ==> PieceAfter(s, sep, IndexOfFrom(s, sep, 0), r.value)
  {
    var p := IndexOfFrom(s, sep, 0);
    if p == -1 then None
    else
      var start := p + |sep|;
      var q := IndexOfFrom(s, sep, start);
      var stop := if q == -1 then |s| else q;
      SegmentFacts(s, sep, p, stop);
      Some(s[start..stop])
  }

  /** `piece` follows the occurrence of `sep` at `p` in `s` and runs to the
      next occurrence after it, or to the end: no occurrence starts inside it,
      and it holds no `sep`. */
  ghost predicate PieceAfter(s: string, sep: string, p: int, piece: string) {
    && 0 <= p <= |s|
    && s[..p] + sep + piece <= s
    && (p + |sep| + |piece| == |s| || OccursAt(s, sep, p + |sep| + |piece|))
    && (forall k :: p + |sep| <= k < p + |sep| + |piece| ==> !OccursAt(s, sep, k))
    && !Contains(piece, sep)
  }

  /** The piece between an occurrence at `p` and the next occurrence `stop`
      found after it (or the end) completes the prefix and holds no `sep`. */
  lemma SegmentFacts(s: string, sep: string, p: nat, stop: nat)
    requires |sep| > 0 && OccursAt(s, sep, p) && p + |sep| <= stop <= |s|
    requires forall k :: p + |sep| <= k < stop ==> !OccursAt(s, sep, k)
    requires stop == |s| || OccursAt(s, sep, stop)
    ensures s[..p] + sep + s[p + |sep|..stop] == s[..stop]
    ensures PieceAfter(s, sep, p, s[p + |sep|..stop])
  {
    assert s[..stop] == s[..p] + s[p..p + |sep|] + s[p + |sep|..stop];
    NoSeparatorInside(s, sep, p + |sep|, stop);
  }

  /** A slice of a slice is a slice of the original. */
  lemma SliceOfSlice(s: string, start: nat, stop: nat, k: nat, n: nat)
    requires start <= stop <= |s|
    requires k + n <= stop - start
    ensures s[start + k..start + k + n] == s[start..stop][k..k + n]
  {
    var t := s[start..stop];
    var a := s[start + k..start + k + n];
    forall i | 0 <= i < n ensures t[k..k + n][i] == a[i] {
      assert t[k + i] == s[start + k + i];
    }
  }

  /** A stretch of `s` in which no occurrence of `sep` starts (and ends inside
      the stretch) does not contain `sep`. */
  lemma NoSeparatorInside(s: string, sep: string, start: nat, stop: nat)
    requires |sep| > 0 && start <= stop <= |s|
    requires forall k :: start <= k < stop ==> !OccursAt(s, sep, k)
    ensures !Contains(s[start..stop], sep)
  {
    if Contains(s[start..stop], sep) {
      var k :| OccursAt(s[start..stop], sep, k);
      SliceOfSlice(s, start, stop, k, |sep|);
      assert OccursAt(s, sep, start + k);
      assert false;
    }
  }

  /** In `pre + sep + rest`, where `sep` only occurs once `pre` is over, the
      first occurrence of `sep` is the one right after `pre`. */
  lemma {:induction false} IndexOfJoin(pre: string, sep: string, rest: string)
    requires |sep| > 0 && !Contains(pre + sep[..|sep| - 1], sep)
    ensures IndexOfFrom(pre + sep + rest, sep, 0) == |pre|
  {
    var s := pre + sep + rest;
    var p := |pre|;
    var n := |sep|;
    var head := pre + sep[..n - 1];
    assert s[p..p + n] == sep;
    assert OccursAt(s, sep, p);
    assert s[..p + n - 1] == head;
    forall k | 0 <= k < p
      ensures !OccursAt(s, sep, k)
    {
      SliceOfSlice(s, 0, p + n - 1, k, n);
      assert !OccursAt(head, sep, k);
    }
  }

  /** No occurrence of `sep` starts inside a tail that does not contain it. */
  lemma {:induction false} IndexOfInTail(pre: string, sep: string, rest: string)
    requires |sep| > 0 && !Contains(rest, sep)
    ensures IndexOfFrom(pre + rest, sep, |pre|) == -1
  {
    var s := pre + rest;
    var start := |pre|;
    assert s[start..] == rest;
    forall k | start <= k
      ensures !OccursAt(s, sep, k)
    {
      if k + |sep| <= |s| {
        SliceOfSlice(s, start, |s|, k - start, |sep|);
        assert !OccursAt(rest, sep, k - start);
      }
    }
  }

  /** Splitting `pre + sep + rest` gives back `rest` as the second piece when
      `sep` neither ends early in `pre` nor occurs in `rest`. */
  lemma SplitSecondOfJoin(pre: string, sep: string, rest: string)
    requires |sep| > 0
    requires !Contains(pre + sep[..|sep| - 1], sep)
    requires !Contains(rest, sep)
    ensures SplitSecond(pre + sep + rest, sep) == Some(rest)
  {
    var s := pre + sep + rest;
    IndexOfJoin(pre, sep, rest);
    IndexOfInTail(pre + sep, sep, rest);
    assert s[|pre| + |sep|..|s|] == rest;
  }

  /** The JavaScript clamp of a `substring` argument into [0, len]. */
  function Clamp(a: int, len: nat): (r: nat)
    ensures r <= len
    ensures 0 <= a <= len ==> r == a
  {
    if a < 0 then 0 else if a > len then len else a
  }

  /** `s.substring(a, b)`: both arguments are clamped into [0, |s|] and swapped
      when the first is the larger, so it is total. */
  function Substring(s: string, a: int, b: int): (r: string)
    ensures 0 <= a <= b <= |s| ==> r == s[a..b]
    ensures |r| <= |s|
  {
    var lo := Clamp(a, |s|);
    var hi := Clamp(b, |s|);
    if lo <= hi then s[lo..hi] else s[hi..lo]
  }

  /** `substring` does not care about the order of its arguments. */
  lemma SubstringSymmetric(s: string, a: int, b: int)
    ensures Substring(s, a, b) == Substring(s, b, a)
  {
  }

  /** Lower-casing of one character, for the ASCII letters. */
  function LowerChar(c: char): char {
    if 'A' <= c <= 'Z' then (c as int - 'A' as int + 'a' as int) as char else c
  }

  /** `s.toLowerCase()` restricted to ASCII letters. */
  function ToLower(s: string): (r: string)
    ensures |r| == |s|
    ensures forall k :: 0 <= k < |s| ==> r[k] == LowerChar(s[k])
  {
    if |s| == 0 then "" else [LowerChar(s[0])] + ToLower(s[1..])
  }

  /** Lower-casing twice is lower-casing once. */
  lemma ToLowerIdempotent(s: string)
    ensures ToLower(ToLower(s)) == ToLower(s)
  {
  }

  /** A string without upper-case ASCII letters is its own lower case. */
  lemma ToLowerOfLower(s: string)
    requires forall k :: 0 <= k < |s| ==> !('A' <= s[k] <= 'Z')
    ensures ToLower(s) == s
  {
  }

  /** The characters `String.prototype.trim` removes: WhiteSpace and
      LineTerminator of section 12.2 and 12.3 of ECMA-262 (the Unicode
      space separators, tab, vertical tab, form feed, no-break space, the
      byte order mark and the four line terminators). */
  predicate IsWhitespace(c: char) {
    || c == '\t' || c == '\n' || c == '\U{000B}' || c == '\U{000C}' || c == '\r'
    || c == ' ' || c == '\U{00A0}' || c == '\U{1680}'
    || ('\U{2000}' <= c <= '\U{200A}')
    || c == '\U{2028}' || c == '\U{2029}' || c == '\U{202F}' || c == '\U{205F}'
    || c == '\U{3000}' || c == '\U{FEFF}'
  }

  /** `r` is `s` with its leading whitespace cut off: a suffix of `s`, only
      whitespace before it, and not starting with whitespace itself. */
  ghost predicate LeadCut(s: string, r: string) {
    && |r| <= |s| && r == s[|s| - |r|..]
    && (forall k :: 0 <= k < |s| - |r| ==> IsWhitespace(s[k]))
    && (|r| == 0 || !IsWhitespace(r[0]))
  }

  /** `r` is `s` with its trailing whitespace cut off: a prefix of `s`, only
      whitespace after it, and not ending with whitespace itself. */
  ghost predicate TailCut(s: string, r: string) {
    && |r| <= |s| && r == s[..|r|]
    && (forall k :: |r| <= k < |s| ==> IsWhitespace(s[k]))
    && (|r| == 0 || !IsWhitespace(r[|r| - 1]))
  }

  /** Drops the leading whitespace. */
  function TrimStart(s: string): (r: string)
    ensures LeadCut(s, r)
  {
    if |s| > 0 && IsWhitespace(s[0]) then
      var r := TrimStart(s[1..]);
      LeadCutStep(s, r);
      r
    else
      assert s[0..] == s;
      s
  }

  /** Cutting the leading whitespace of `s[1..]` cuts that of `s` when `s`
      starts with whitespace. */
  lemma LeadCutStep(s: string, r: string)
    requires |s| > 0 && IsWhitespace(s[0]) && LeadCut(s[1..], r)
    ensures LeadCut(s, r)
  {
    assert s[1..][|s| - 1 - |r|..] == s[|s| - |r|..];
    forall k | 0 < k < |s| - |r|
      ensures IsWhitespace(s[k])
    {
      assert s[k] == s[1..][k - 1];
    }
  }

  /** Drops the trailing whitespace. */
  function TrimEnd(s: string): (r: string)
    ensures TailCut(s, r)
  {
    if |s| > 0 && IsWhitespace(s[|s| - 1]) then
      var r := TrimEnd(s[..|s| - 1]);
      TailCutStep(s, r);
      r
    else
      assert s[..|s|] == s;
      s
  }

  /** Cutting the trailing whitespace of all but the last character cuts that
      of `s` when `s` ends with whitespace. */
  lemma TailCutStep(s: string, r: string)
    requires |s| > 0 && IsWhitespace(s[|s| - 1]) && TailCut(s[..|s| - 1], r)
    ensures TailCut(s, r)
  {
    assert s[..|s| - 1][..|r|] == s[..|r|];
    forall k | |r| <= k < |s| - 1
      ensures IsWhitespace(s[k])
    {
      assert s[k] == s[..|s| - 1][k];
    }
  }

  /** `r` is `s` with the whitespace at both ends cut off: it is the slice of
      `s` from `lo`, everything around it is whitespace, and it neither starts
      nor ends with whitespace. */
  ghost predicate TrimmedFrom(s: string, lo: int, r: string) {
    && 0 <= lo && lo + |r| <= |s| && r == s[lo..lo + |r|]
    && (forall k :: 0 <= k < lo ==> IsWhitespace(s[k]))
    && (forall k :: lo + |r| <= k < |s| ==> IsWhitespace(s[k]))
    && (|r| == 0 || (!IsWhitespace(r[0]) && !IsWhitespace(r[|r| - 1])))
  }

  /** `s.trim()`. */
  function Trim(s: string): (r: string)
    ensures TrimmedFrom(s, |s| - |TrimStart(s)|, r)
  {
    TrimFacts(s);
    TrimEnd(TrimStart(s))
  }

  /** Leading then trailing whitespace cut off leaves `s` trimmed. */
  lemma TrimFacts(s: string)
    ensures TrimmedFrom(s, |s| - |TrimStart(s)|, TrimEnd(TrimStart(s)))
  {
    TrimShape(s, TrimStart(s), TrimEnd(TrimStart(s)));
  }

  /** Cutting the leading whitespace and then the trailing whitespace leaves
      `s` trimmed. */
  lemma TrimShape(s: string, t: string, r: string)
    requires LeadCut(s, t) && TailCut(t, r)
    ensures TrimmedFrom(s, |s| - |t|, r)
  {
    var lo := |s| - |t|;
    assert r == s[lo..lo + |r|];
    forall k | lo + |r| <= k < |s|
      ensures IsWhitespace(s[k])
    {
      assert s[k] == t[k - lo];
    }
    if |r| > 0 {
      assert r[0] == t[0];
    }
  }

  /** `!s.trim()`: the string is empty once trimmed exactly when every one of
      its characters is whitespace. */
  lemma TrimEmptyIffAllWhitespace(s: string)
    ensures Trim(s) == "" <==> forall k :: 0 <= k < |s| ==> IsWhitespace(s[k])
  {
    var r := Trim(s);
    var lo := |s| - |TrimStart(s)|;
    if r != "" {
      // the trimmed text starts with a character that is not whitespace
      assert r[0] == s[lo];
    }
  }

  /** `xs.findIndex(v => v === x)`: the first position holding `x`, or -1. */
  function FindIndex<T(==)>(xs: seq<T>, x: T): (r: int)
    ensures -1 <= r < |xs|
    ensures r == -1 <==> x !in xs
    ensures r >= 0 ==> xs[r] == x && forall k :: 0 <= k < r ==> xs[k] != x
  {
    if |xs| == 0 then -1
    else if xs[0] == x then 0
    else
      var r := FindIndex(xs[1..], x);
      if r == -1 then -1 else r + 1
  }
}

=== FILE: normalize.dfy ===
/** Item normalisation (`normalizeDataItem` in src/index.tsx): the display name
    is the base name of the path with embedded id runs removed, and the
    extension is the text after the last dot of that display name. */
module Normalize {
  import opened JsString

  /** One asset as the picker holds it.  `ranges` is the highlight range list
      the search attaches to the (shared) item object; it starts undefined. */
  datatype Item = Item(
    path: string,
    originalName: string,
    name: string,
    extname: Option<string>,
    ranges: Option<seq<int>>)

  /** The character class `[0-9_]` of the id-run pattern. */
  predicate IsIdChar(c: char) {
    ('0' <= c <= '9') || c == '_'
  }

  /** The `{5,}` of the id-run pattern. */
  const MinRun: nat := 5

  /** Every character of `s[lo..hi]` is of the class. */
  predicate AllId(s: string, lo: nat, hi: nat)
    requires lo <= hi <= |s|
  {
    forall k :: lo <= k < hi ==> IsIdChar(s[k])
  }

  /** Length of the run of `[0-9_]` characters that starts at `i`. */
  function RunLen(s: string, i: nat): (n: nat)
    requires i <= |s|
    ensures i + n <= |s|
    ensures i + n == |s| || !IsIdChar(s[i + n])
    ensures n > 0 <==> i < |s| && IsIdChar(s[i])
    decreases |s| - i
  {
    if i < |s| && IsIdChar(s[i]) then 1 + RunLen(s, i + 1) else 0
  }

  /** Every character the run length counts is of the class. */
  lemma {:induction false} RunLenIsRun(s: string, i: nat)
    requires i <= |s|
    ensures AllId(s, i, i + RunLen(s, i))
    decreases |s| - i
  {
    if i < |s| && IsIdChar(s[i]) {
      RunLenIsRun(s, i + 1);
    }
  }

  /** A successful match of `/[0-9_]{5,}(\.|$)/`: where it ends, and the text
      of group 1 (the dot, or empty when the match ends at the end). */
  datatype RegexMatch = RegexMatch(end: nat, group: string)

  /** The backtracking of the greedy `{5,}` quantifier: having consumed `k`
      characters of the class from `i`, try `(\.|$)`, and on failure give back
      one character, down to five. */
  function Backtrack(s: string, i: nat, k: nat): (r: Option<RegexMatch>)
    requires MinRun <= k && i + k <= |s|
    ensures r.Some? ==> i + MinRun <= r.value.end <= |s| && |r.value.group| <= 1
    decreases k
  {
    if i + k == |s| then Some(RegexMatch(|s|, ""))
    else if s[i + k] == '.' then Some(RegexMatch(i + k + 1, "."))
    else if k > MinRun then Backtrack(s, i, k - 1)
    else None
  }

  /** Giving back characters never helps: inside the run the next character is
      again of the class, so it is neither a dot nor the end. */
  lemma {:induction false} BacktrackInsideRun(s: string, i: nat, k: nat)
    requires i <= |s| && MinRun <= k < RunLen(s, i)
    ensures Backtrack(s, i, k) == None
    decreases k
  {
    RunLenIsRun(s, i);
    assert IsIdChar(s[i + k]);
    if k > MinRun {
      BacktrackInsideRun(s, i, k - 1);
    }
  }

  /** The regex tried at position `i` (a sticky attempt, as the global replace
      makes it): the greedy `{5,}` takes the whole run from `i`, then
      backtracks. */
  function MatchAt(s: string, i: nat): (r: Option<RegexMatch>)
    requires i <= |s|
    ensures r.Some? ==> i + MinRun <= r.value.end <= |s| && |r.value.group| <= 1
  {
    var n := RunLen(s, i);
    if n < MinRun then None else Backtrack(s, i, n)
  }

  /** The regex matches at `i` exactly when the whole run from `i` is at
      least five long and is followed by a dot or by the end of the string;
      the match then takes the run and the dot. */
  lemma {:induction false} MatchAtCases(s: string, i: nat)
    requires i <= |s|
    ensures var n := RunLen(s, i);
      MatchAt(s, i) == if n >= MinRun && i + n == |s| then Some(RegexMatch(|s|, ""))
                       else if n >= MinRun && s[i + n] == '.' then Some(RegexMatch(i + n + 1, "."))
                       else None
  {
    var n := RunLen(s, i);
    if n >= MinRun && i + n < |s| && s[i + n] != '.' {
      BacktrackBelowRun(s, i, n);
    }
  }

  /** When the run is followed by neither a dot nor the end, no amount of
      backtracking finds a match. */
  lemma {:induction false} BacktrackBelowRun(s: string, i: nat, n: nat)
    requires i <= |s| && n == RunLen(s, i) && n >= MinRun
    requires i + n < |s| && s[i + n] != '.'
    ensures Backtrack(s, i, n) == None
  {
    if n > MinRun {
      BacktrackInsideRun(s, i, n - 1);
    }
  }

  /** What one step of a left-to-right pass emits, and how many characters
      it consumes. */
  datatype Chunk = Chunk(out: string, used: nat)

  /** One step of the global replace at position `i`, as the regex engine
      takes it: a match there is replaced by its group and consumed whole;
      otherwise the character is kept. */
  function RegexStep(s: string, i: nat): (c: Chunk)
    requires i < |s|
    ensures 1 <= c.used <= |s| - i && |c.out| <= c.used
  {
    match MatchAt(s, i)
    case Some(m) => Chunk(m.group, m.end - i)
    case None => Chunk([s[i]], 1)
  }

  /** `s.replace(/[0-9_]{5,}(\.|$)/g, '$1')` from position `i` on, read off
      the run of `[0-9_]` at each position: a whole run of five or more that
      is followed by the end is deleted, one followed by a dot is replaced by
      the dot and the scan resumes after it, and otherwise one character is
      kept (`ReplaceFromFollowsRegex` shows that this is the regex engine's
      step). */
  function ReplaceFrom(s: string, i: nat): (r: string)
    requires i <= |s|
    ensures |r| <= |s| - i
    decreases |s| - i
  {
    if i == |s| then ""
    else
      var n := RunLen(s, i);
      if n >= MinRun && i + n == |s| then ""
      else if n >= MinRun && s[i + n] == '.' then "." + ReplaceFrom(s, i + n + 1)
      else [s[i]] + ReplaceFrom(s, i + 1)
  }

  /** At every position the scan does what the regex engine does there: it
      emits the match's group and resumes after the match, or keeps the
      character when no match starts there. */
  lemma {:induction false} ReplaceFromFollowsRegex(s: string, i: nat)
    requires i < |s|
    ensures var c := RegexStep(s, i);
      i + c.used <= |s| && ReplaceFrom(s, i) == c.out + ReplaceFrom(s, i + c.used)
  {
    RegexStepCases(s, i);
    var n := RunLen(s, i);
    var c := RegexStep(s, i);
    if n >= MinRun && i + n == |s| {
      assert c == Chunk("", n);
      assert ReplaceFrom(s, i) == "" && ReplaceFrom(s, i + n) == "";
    } else if n >= MinRun && s[i + n] == '.' {
      assert c == Chunk(".", n + 1);
      assert ReplaceFrom(s, i) == "." + ReplaceFrom(s, i + n + 1);
    } else {
      assert c == Chunk([s[i]], 1);
      assert ReplaceFrom(s, i) == [s[i]] + ReplaceFrom(s, i + 1);
    }
  }

  /** The engine's step, read off the run at `i`. */
  lemma {:induction false} RegexStepCases(s: string, i: nat)
    requires i < |s|
    ensures var n := RunLen(s, i);
      RegexStep(s, i) == if n >= MinRun && i + n == |s| then Chunk("", n)
                         else if n >= MinRun && s[i + n] == '.' then Chunk(".", n + 1)
                         else Chunk([s[i]], 1)
  {
    MatchAtCases(s, i);
  }

  /** The id-run stripping applied to a base name. */
  function StripIds(s: string): (r: string)
    ensures |r| <= |s|
  {
    ReplaceFrom(s, 0)
  }

  /** One step of the reference stripping on a non-empty string: a non-id
      character is kept; a whole run of `[0-9_]` is deleted when it is at
      least five long and followed by a dot (which is kept) or by the end,
      and kept otherwise. */
  function FrontChunk(s: string): (c: Chunk)
    requires |s| > 0
    ensures 1 <= c.used <= |s|
  {
    if !IsIdChar(s[0]) then Chunk([s[0]], 1)
    else
      var n := RunLen(s, 0);
      if n >= MinRun && n == |s| then Chunk("", n)
      else if n >= MinRun && s[n] == '.' then Chunk(".", n + 1)
      else Chunk(s[..n], n)
  }

  /** Reference definition of the stripping, run by run: every maximal run of
      `[0-9_]` that is at least five long and is followed by a dot or by the
      end is deleted; all other characters are kept. */
  function StripRef(s: string): string
    decreases |s|
  {
    if |s| == 0 then ""
    else
      var c := FrontChunk(s);
      c.out + StripRef(s[c.used..])
  }

  /** One step of the reference, once the step's outcome is known. */
  lemma {:induction false} StripRefUnfold(s: string, c: Chunk)
    requires |s| > 0 && FrontChunk(s) == c
    ensures StripRef(s) == c.out + StripRef(s[c.used..])
  {
  }

  /** The reference's step on a non-id first character. */
  lemma {:induction false} FrontChunkNonId(s: string)
    requires |s| > 0 && !IsIdChar(s[0])
    ensures FrontChunk(s) == Chunk([s[0]], 1)
  {
  }

  /** The reference's step on a front run it keeps. */
  lemma {:induction false} FrontChunkKept(s: string)
    requires |s| > 0 && IsIdChar(s[0])
    requires var n := RunLen(s, 0);
      !(n >= MinRun && (n == |s| || s[n] == '.'))
    ensures FrontChunk(s) == Chunk(s[..RunLen(s, 0)], RunLen(s, 0))
  {
  }

  /** The reference's step on a front run it deletes, at the end. */
  lemma {:induction false} FrontChunkDroppedEnd(s: string, n: nat)
    requires |s| > 0 && IsIdChar(s[0]) && n == RunLen(s, 0)
    requires n >= MinRun && n == |s|
    ensures FrontChunk(s) == Chunk("", n)
  {
  }

  /** The reference's step on a front run it deletes, before a dot. */
  lemma {:induction false} FrontChunkDroppedDot(s: string, n: nat)
    requires |s| > 0 && IsIdChar(s[0]) && n == RunLen(s, 0)
    requires n >= MinRun && n < |s| && s[n] == '.'
    ensures FrontChunk(s) == Chunk(".", n + 1)
  {
  }

  /** The run starting at `i` is the run starting at the front of `s[i..]`. */
  lemma {:induction false} RunLenShift(s: string, i: nat)
    requires i <= |s|
    ensures RunLen(s, i) == RunLen(s[i..], 0)
    decreases |s| - i
  {
    if i < |s| && IsIdChar(s[i]) {
      RunLenShift(s, i + 1);
      assert s[i..][1..] == s[i + 1..];
      RunLenShift(s[i..], 1);
    }
  }

  /** One step of the reference stripping on a front run that is kept. */
  lemma {:induction false} StripRefKeptRun(u: string)
    requires |u| > 0 && IsIdChar(u[0])
    requires var n := RunLen(u, 0);
      !(n >= MinRun && (n == |u| || u[n] == '.'))
    ensures StripRef(u) == u[..RunLen(u, 0)] + StripRef(u[RunLen(u, 0)..])
  {
    var n := RunLen(u, 0);
    FrontChunkKept(u);
    StripRefUnfold(u, Chunk(u[..n], n));
  }

  /** Reference stripping of a string whose front run is kept: stripping
      from the second character copies the rest of the run too. */
  lemma {:induction false} KeptRunTail(t: string, n: nat)
    requires |t| > 1 && IsIdChar(t[0]) && IsIdChar(t[1])
    requires n == RunLen(t, 0)
    requires !(n >= MinRun && (n == |t| || t[n] == '.'))
    ensures 2 <= n && StripRef(t[1..]) == t[1..n] + StripRef(t[n..])
  {
    var u := t[1..];
    assert n == 1 + RunLen(t, 1);
    RunLenShift(t, 1);
    assert u[..n - 1] == t[1..n];
    assert u[n - 1..] == t[n..];
    StripRefKeptRun(u);
  }

  /** The global-replace scan and the run-wise reference agree on every
      suffix, so in particular on the whole string. */
  lemma {:induction false} ReplaceFromIsStripRef(s: string, i: nat)
    requires i <= |s|
    ensures ReplaceFrom(s, i) == StripRef(s[i..])
    decreases |s| - i, 1
  {
    if i < |s| {
      var n := RunLen(s, i);
      if n >= MinRun && (i + n == |s| || s[i + n] == '.') {
        AgreeAtMatch(s, i, n);
      } else {
        ScanStepKeep(s, i);
      }
    }
  }

  /** The agreement where the regex matches, from the agreement after the
      match. */
  lemma {:induction false} AgreeAtMatch(s: string, i: nat, n: nat)
    requires i < |s| && n == RunLen(s, i) && n >= MinRun && (i + n == |s| || s[i + n] == '.')
    ensures ReplaceFrom(s, i) == StripRef(s[i..])
    decreases |s| - i, 0
  {
    if i + n < |s| {
      ReplaceFromIsStripRef(s, i + n + 1);
    }
    ScanStepMatch(s, i, n);
  }

  /** Where the regex matches, the scan and the reference both delete the run
      and keep the dot, if any. */
  lemma {:induction false} ScanStepMatch(s: string, i: nat, n: nat)
    requires i < |s| && n == RunLen(s, i) && n >= MinRun && (i + n == |s| || s[i + n] == '.')
    requires i + n < |s| ==> ReplaceFrom(s, i + n + 1) == StripRef(s[i + n + 1..])
    ensures ReplaceFrom(s, i) == StripRef(s[i..])
  {
    StripRefAtMatch(s, i, n);
    if i + n < |s| {
      ScanStepMatchDot(s, i, n);
    } else {
      ScanStepMatchEnd(s, i, n);
    }
  }

  /** The reference stripping of a suffix that starts with a deleted run. */
  lemma {:induction false} StripRefAtMatch(s: string, i: nat, n: nat)
    requires i < |s| && n == RunLen(s, i) && n >= MinRun && (i + n == |s| || s[i + n] == '.')
    ensures StripRef(s[i..]) == if i + n == |s| then "" else "." + StripRef(s[i + n + 1..])
  {
    var t := s[i..];
    RunLenShift(s, i);
    assert t[0] == s[i];
    if i + n < |s| {
      assert t[n] == s[i + n];
      StripRefDropFront(t, n);
      assert t[n + 1..] == s[i + n + 1..];
    } else {
      StripRefDropFront(t, n);
    }
  }

  /** The reference stripping of a string that starts with a deleted run. */
  lemma {:induction false} StripRefDropFront(t: string, n: nat)
    requires |t| > 0 && IsIdChar(t[0]) && n == RunLen(t, 0)
    requires n >= MinRun && (n == |t| || t[n] == '.')
    ensures StripRef(t) == if n == |t| then "" else "." + StripRef(t[n + 1..])
  {
    if n < |t| {
      FrontChunkDroppedDot(t, n);
      StripRefUnfold(t, Chunk(".", n + 1));
    } else {
      FrontChunkDroppedEnd(t, n);
      StripRefUnfold(t, Chunk("", n));
      assert t[n..] == [];
    }
  }

  /** The scan over a match that ends at a dot keeps the dot and resumes
      after it. */
  lemma {:induction false} ScanStepMatchDot(s: string, i: nat, n: nat)
    requires i < |s| && n == RunLen(s, i) && n >= MinRun && i + n < |s| && s[i + n] == '.'
    ensures ReplaceFrom(s, i) == "." + ReplaceFrom(s, i + n + 1)
  {
  }

  /** The scan over a match that ends at the end of the string is done. */
  lemma {:induction false} ScanStepMatchEnd(s: string, i: nat, n: nat)
    requires i < |s| && n == RunLen(s, i) && n >= MinRun && i + n == |s|
    ensures ReplaceFrom(s, i) == ""
  {
  }

  /** Where the regex does not match, the scan and the reference both keep
      the character and go on from the next one. */
  lemma {:induction false} ScanStepKeep(s: string, i: nat)
    requires i < |s|
    requires var n := RunLen(s, i);
      !(n >= MinRun && (i + n == |s| || s[i + n] == '.'))
    ensures ReplaceFrom(s, i) == StripRef(s[i..])
    decreases |s| - i, 0
  {
    ReplaceFromIsStripRef(s, i + 1);
    ReplaceFromKeep(s, i);
    StripRefKeepAt(s, i);
  }

  /** The scan keeps a character where no deletable run starts. */
  lemma {:induction false} ReplaceFromKeep(s: string, i: nat)
    requires i < |s|
    requires var n := RunLen(s, i);
      !(n >= MinRun && (i + n == |s| || s[i + n] == '.'))
    ensures ReplaceFrom(s, i) == [s[i]] + ReplaceFrom(s, i + 1)
  {
  }

  /** The reference keeps a character of a suffix where no deletable run
      starts. */
  lemma {:induction false} StripRefKeepAt(s: string, i: nat)
    requires i < |s|
    requires var n := RunLen(s, i);
      !(n >= MinRun && (i + n == |s| || s[i + n] == '.'))
    ensures StripRef(s[i..]) == [s[i]] + StripRef(s[i + 1..])
  {
    var t := s[i..];
    var n := RunLen(s, i);
    RunLenShift(s, i);
    assert t[0] == s[i];
    assert n < |t| ==> t[n] == s[i + n];
    StripRefKeepHead(t);
    assert t[1..] == s[i + 1..];
  }

  /** The reference keeps the first character when no deletable run starts
      there. */
  lemma {:induction false} StripRefKeepHead(t: string)
    requires |t| > 0
    requires var n := RunLen(t, 0);
      !(n >= MinRun && (n == |t| || t[n] == '.'))
    ensures StripRef(t) == [t[0]] + StripRef(t[1..])
  {
    if IsIdChar(t[0]) {
      KeepIdChar(t);
    } else {
      FrontChunkNonId(t);
      StripRefUnfold(t, Chunk([t[0]], 1));
    }
  }

  /** The reference keeps the first character of a run it keeps, and goes on
      from the second. */
  lemma {:induction false} KeepIdChar(t: string)
    requires |t| > 0 && IsIdChar(t[0])
    requires var n := RunLen(t, 0);
      !(n >= MinRun && (n == |t| || t[n] == '.'))
    ensures StripRef(t) == [t[0]] + StripRef(t[1..])
  {
    var n := RunLen(t, 0);
    StripRefKeptRun(t);
    if n == 1 {
      assert t[..n] == [t[0]] && t[n..] == t[1..];
    } else {
      KeptRunTail(t, n);
      ConsRun(t, n, StripRef(t[n..]));
    }
  }

  /** Splitting off the first character of a prefix. */
  lemma {:induction false} ConsRun(t: string, n: nat, x: string)
    requires 1 <= n <= |t|
    ensures t[..n] + x == [t[0]] + (t[1..n] + x)
  {
    assert t[..n] == [t[0]] + t[1..n];
  }

  /** The scan that models the JavaScript global replace deletes exactly the
      maximal id runs of five or more that precede a dot or the end. */
  lemma {:induction false} StripIdsIsStripRef(s: string)
    ensures StripIds(s) == StripRef(s)
  {
    ReplaceFromIsStripRef(s, 0);
    assert s[0..] == s;
  }

  /** A run of id characters followed by a non-id character is that long. */
  lemma {:induction false} RunLenOfConcat(a: string, b: string)
    requires forall k :: 0 <= k < |a| ==> IsIdChar(a[k])
    requires |b| == 0 || !IsIdChar(b[0])
    ensures RunLen(a + b, 0) == |a|
    decreases |a|
  {
    if |a| == 0 {
      assert a + b == b;
    } else {
      assert (a + b)[0] == a[0];
      RunLenShift(a + b, 1);
      assert (a + b)[1..] == a[1..] + b;
      RunLenOfConcat(a[1..], b);
    }
  }

  /** Reference stripping passes a non-id first character through. */
  lemma {:induction false} StripRefCons(c: char, u: string)
    requires !IsIdChar(c)
    ensures StripRef([c] + u) == [c] + StripRef(u)
  {
    assert ([c] + u)[0] == c;
    FrontChunkNonId([c] + u);
    StripRefUnfold([c] + u, Chunk([c], 1));
    assert ([c] + u)[1..] == u;
  }

  /** Reference stripping leaves its own output alone. */
  lemma {:induction false} StripRefIdempotent(s: string)
    ensures StripRef(StripRef(s)) == StripRef(s)
    decreases |s|
  {
    if |s| > 0 {
      var n := RunLen(s, 0);
      if !IsIdChar(s[0]) {
        StripRefIdempotent(s[1..]);
        IdemNonIdHead(s);
      } else if n >= MinRun && (n == |s| || s[n] == '.') {
        if n < |s| {
          StripRefIdempotent(s[n + 1..]);
        }
        IdemDroppedRun(s, n);
      } else {
        if n < |s| {
          StripRefIdempotent(s[n + 1..]);
        }
        IdemKeptRun(s, n);
      }
    }
  }

  /** The step of idempotence for a non-id first character. */
  lemma {:induction false} IdemNonIdHead(s: string)
    requires |s| > 0 && !IsIdChar(s[0])
    requires StripRef(StripRef(s[1..])) == StripRef(s[1..])
    ensures StripRef(StripRef(s)) == StripRef(s)
  {
    var r := StripRef(s[1..]);
    FrontChunkNonId(s);
    StripRefUnfold(s, Chunk([s[0]], 1));
    StripRefCons(s[0], r);
  }

  /** The step of idempotence for a deleted front run. */
  lemma {:induction false} IdemDroppedRun(s: string, n: nat)
    requires |s| > 0 && IsIdChar(s[0]) && n == RunLen(s, 0)
    requires n >= MinRun && (n == |s| || s[n] == '.')
    requires n < |s| ==> StripRef(StripRef(s[n + 1..])) == StripRef(s[n + 1..])
    ensures StripRef(StripRef(s)) == StripRef(s)
  {
    StripRefDropFront(s, n);
    if n < |s| {
      StripRefCons('.', StripRef(s[n + 1..]));
    } else {
      assert StripRef("") == "";
    }
  }

  /** The step of idempotence for a kept front run: the output starts with
      the same run, followed by the same non-id character. */
  lemma {:induction false} IdemKeptRun(s: string, n: nat)
    requires |s| > 0 && IsIdChar(s[0]) && n == RunLen(s, 0)
    requires !(n >= MinRun && (n == |s| || s[n] == '.'))
    requires n < |s| ==> StripRef(StripRef(s[n + 1..])) == StripRef(s[n + 1..])
    ensures StripRef(StripRef(s)) == StripRef(s)
  {
    if n == |s| {
      StripRefKeptRun(s);
      assert s[..n] == s && s[n..] == [];
    } else {
      KeptRunOutput(s, n);
      RunLenIsRun(s, 0);
      assert forall k :: 0 <= k < n ==> s[..n][k] == s[k];
      StripRefOfKeptRun(s[..n], s[n], StripRef(s[n + 1..]));
    }
  }

  /** The reference output of a string whose front run is kept and followed
      by a character: the run, that character, and the rest stripped. */
  lemma {:induction false} KeptRunOutput(s: string, n: nat)
    requires |s| > 0 && IsIdChar(s[0]) && n == RunLen(s, 0) && n < |s|
    requires !(n >= MinRun && s[n] == '.')
    ensures StripRef(s) == s[..n] + ([s[n]] + StripRef(s[n + 1..]))
  {
    StripRefKeptRun(s);
    assert s[n..] == [s[n]] + s[n + 1..];
    StripRefCons(s[n], s[n + 1..]);
  }

  /** A non-empty run of id characters that the reference keeps, followed by
      a non-id character, passes through it. */
  lemma {:induction false} StripRefOfKeptRun(a: string, c: char, rest: string)
    requires |a| > 0 && forall k :: 0 <= k < |a| ==> IsIdChar(a[k])
    requires !IsIdChar(c) && !(|a| >= MinRun && c == '.')
    ensures StripRef(a + ([c] + rest)) == a + ([c] + StripRef(rest))
  {
    var out := a + ([c] + rest);
    RunLenOfConcat(a, [c] + rest);
    assert out[0] == a[0] && out[|a|] == c;
    StripRefKeptRun(out);
    assert out[..|a|] == a && out[|a|..] == [c] + rest;
    StripRefCons(c, rest);
  }

  /** Stripping id runs a second time changes nothing. */
  lemma {:induction false} StripIdsIdempotent(s: string)
    ensures StripIds(StripIds(s)) == StripIds(s)
  {
    StripIdsIsStripRef(s);
    StripIdsIsStripRef(StripIds(s));
    StripRefIdempotent(s);
  }

  /** The characters outside `[0-9_]`, in order. */
  function NonId(s: string): string {
    if |s| == 0 then ""
    else if IsIdChar(s[0]) then NonId(s[1..])
    else [s[0]] + NonId(s[1..])
  }

  lemma {:induction false} NonIdConcat(a: string, b: string)
    ensures NonId(a + b) == NonId(a) + NonId(b)
    decreases |a|
  {
    if |a| > 0 {
      assert (a + b)[1..] == a[1..] + b;
      NonIdConcat(a[1..], b);
    } else {
      assert a + b == b;
    }
  }

  lemma {:induction false} NonIdOfRun(a: string)
    requires forall k :: 0 <= k < |a| ==> IsIdChar(a[k])
    ensures NonId(a) == ""
    decreases |a|
  {
    if |a| > 0 {
      NonIdOfRun(a[1..]);
    }
  }

  /** Only id characters are ever deleted: every other character, the dots in
      particular, survives in its order. */
  lemma {:induction false} StripRefKeepsNonId(s: string)
    ensures NonId(StripRef(s)) == NonId(s)
    decreases |s|
  {
    if |s| > 0 {
      var n := RunLen(s, 0);
      if !IsIdChar(s[0]) {
        StripRefKeepsNonId(s[1..]);
        KeepsNonIdHead(s);
      } else if n >= MinRun && (n == |s| || s[n] == '.') {
        if n < |s| {
          StripRefKeepsNonId(s[n + 1..]);
        }
        KeepsNonIdDroppedRun(s, n);
      } else {
        StripRefKeepsNonId(s[n..]);
        KeepsNonIdKeptRun(s, n);
      }
    }
  }

  /** The front run of id characters contributes nothing to `NonId`. */
  lemma {:induction false} NonIdAfterRun(s: string, n: nat)
    requires n == RunLen(s, 0)
    ensures NonId(s) == NonId(s[n..])
  {
    RunLenIsRun(s, 0);
    assert s == s[..n] + s[n..];
    NonIdConcat(s[..n], s[n..]);
    NonIdOfRun(s[..n]);
  }

  /** The step of `StripRefKeepsNonId` for a non-id first character. */
  lemma {:induction false} KeepsNonIdHead(s: string)
    requires |s| > 0 && !IsIdChar(s[0])
    requires NonId(StripRef(s[1..])) == NonId(s[1..])
    ensures NonId(StripRef(s)) == NonId(s)
  {
    FrontChunkNonId(s);
    StripRefUnfold(s, Chunk([s[0]], 1));
    NonIdConcat([s[0]], StripRef(s[1..]));
  }

  /** The step of `StripRefKeepsNonId` for a deleted front run. */
  lemma {:induction false} KeepsNonIdDroppedRun(s: string, n: nat)
    requires |s| > 0 && IsIdChar(s[0]) && n == RunLen(s, 0)
    requires n >= MinRun && (n == |s| || s[n] == '.')
    requires n < |s| ==> NonId(StripRef(s[n + 1..])) == NonId(s[n + 1..])
    ensures NonId(StripRef(s)) == NonId(s)
  {
    StripRefDropFront(s, n);
    NonIdAfterRun(s, n);
    if n < |s| {
      NonIdCons('.', StripRef(s[n + 1..]));
      NonIdDotTail(s, n);
    } else {
      assert s[n..] == [];
    }
  }

  /** `NonId` of a suffix that starts with a dot. */
  lemma {:induction false} NonIdDotTail(s: string, n: nat)
    requires n < |s| && s[n] == '.'
    ensures NonId(s[n..]) == "." + NonId(s[n + 1..])
  {
    assert s[n..] == [s[n]] + s[n + 1..];
    NonIdCons(s[n], s[n + 1..]);
  }

  /** `NonId` passes a non-id first character through. */
  lemma {:induction false} NonIdCons(c: char, u: string)
    requires !IsIdChar(c)
    ensures NonId([c] + u) == [c] + NonId(u)
  {
    assert ([c] + u)[1..] == u;
  }

  /** The step of `StripRefKeepsNonId` for a kept front run. */
  lemma {:induction false} KeepsNonIdKeptRun(s: string, n: nat)
    requires |s| > 0 && IsIdChar(s[0]) && n == RunLen(s, 0)
    requires !(n >= MinRun && (n == |s| || s[n] == '.'))
    requires NonId(StripRef(s[n..])) == NonId(s[n..])
    ensures NonId(StripRef(s)) == NonId(s)
  {
    StripRefKeptRun(s);
    NonIdAfterRun(s, n);
    RunLenIsRun(s, 0);
    NonIdConcat(s[..n], StripRef(s[n..]));
    NonIdOfRun(s[..n]);
  }

  /** Stripping keeps every character outside `[0-9_]`, in order. */
  lemma {:induction false} StripIdsKeepsNonId(s: string)
    ensures NonId(StripIds(s)) == NonId(s)
  {
    StripIdsIsStripRef(s);
    StripRefKeepsNonId(s);
  }

  /** No character of `s` is of the id-run class. */
  predicate NoIds(s: string) {
    forall k :: 0 <= k < |s| ==> !IsIdChar(s[k])
  }

  /** Reference stripping leaves a string without id characters alone. */
  lemma {:induction false} StripRefNoIds(s: string)
    requires NoIds(s)
    ensures StripRef(s) == s
    decreases |s|
  {
    if |s| > 0 {
      assert NoIds(s[1..]) by {
        forall k | 0 <= k < |s| - 1 ensures !IsIdChar(s[1..][k]) {
          assert s[1..][k] == s[k + 1];
        }
      }
      StripRefNoIds(s[1..]);
    }
  }

  /** A prefix without id characters passes through reference stripping. */
  lemma {:induction false} StripRefNoIdsPrefix(a: string, u: string)
    requires NoIds(a)
    ensures StripRef(a + u) == a + StripRef(u)
    decreases |a|
  {
    if |a| > 0 {
      var w := a[1..] + u;
      assert a + u == [a[0]] + w;
      assert NoIds(a[1..]) by {
        forall k | 0 <= k < |a| - 1 ensures !IsIdChar(a[1..][k]) {
          assert a[1..][k] == a[k + 1];
        }
      }
      StripRefNoIdsPrefix(a[1..], u);
      StripRefCons(a[0], w);
      assert a == [a[0]] + a[1..];
    } else {
      assert a + u == u;
    }
  }

  /** `s` is empty or ends outside the class, so no run of `[0-9_]` crosses
      its end. */
  predicate RunClosed(s: string) {
    |s| == 0 || !IsIdChar(s[|s| - 1])
  }

  /** A run that starts inside a run-closed `a` ends inside it, whatever
      follows. */
  lemma {:induction false} RunLenWithin(a: string, u: string, i: nat)
    requires i < |a| && !IsIdChar(a[|a| - 1])
    ensures RunLen(a + u, i) == RunLen(a, i)
    decreases |a| - i
  {
    assert (a + u)[i] == a[i];
    if IsIdChar(a[i]) {
      RunLenWithin(a, u, i + 1);
    }
  }

  /** The first step of the reference on a run-closed `a` does not look past
      its end. */
  lemma {:induction false} FrontChunkWithin(a: string, u: string)
    requires |a| > 0 && !IsIdChar(a[|a| - 1])
    ensures FrontChunk(a + u) == FrontChunk(a)
    ensures FrontChunk(a).used <= |a|
  {
    var s := a + u;
    assert s[0] == a[0];
    if IsIdChar(a[0]) {
      RunLenWithin(a, u, 0);
      RunLenIsRun(a, 0);
      var n := RunLen(a, 0);
      assert n < |a|;
      assert s[n] == a[n];
      assert s[..n] == a[..n];
    }
  }

  /** The reference strips a run-closed prefix and the rest independently. */
  lemma {:induction false} StripRefSplit(a: string, u: string)
    requires RunClosed(a)
    ensures StripRef(a + u) == StripRef(a) + StripRef(u)
    decreases |a|, 1
  {
    if |a| == 0 {
      assert a + u == u;
    } else {
      SplitAfterStep(a, u, FrontChunk(a));
    }
  }

  /** The split of a non-empty run-closed prefix, from the split of what
      remains of it after one step. */
  lemma {:induction false} SplitAfterStep(a: string, u: string, c: Chunk)
    requires |a| > 0 && RunClosed(a) && c == FrontChunk(a)
    ensures StripRef(a + u) == StripRef(a) + StripRef(u)
    decreases |a|, 0
  {
    SplitStep(a, u, c);
    var rest := a[c.used..];
    StripRefSplit(rest, u);
    AppendAssoc(c.out, StripRef(rest), StripRef(u));
  }

  /** Concatenation regroups freely. */
  lemma AppendAssoc(x: string, y: string, z: string)
    ensures x + (y + z) == (x + y) + z
  {
  }

  /** One step of the reference on a run-closed `a`, with and without what
      follows it. */
  lemma {:induction false} SplitStep(a: string, u: string, c: Chunk)
    requires |a| > 0 && RunClosed(a) && c == FrontChunk(a)
    ensures c.used <= |a| && RunClosed(a[c.used..])
    ensures StripRef(a + u) == c.out + StripRef(a[c.used..] + u)
    ensures StripRef(a) == c.out + StripRef(a[c.used..])
  {
    FrontChunkWithin(a, u);
    var rest := a[c.used..];
    assert (a + u)[c.used..] == rest + u;
    StripRefUnfold(a + u, c);
    StripRefUnfold(a, c);
    assert |rest| > 0 ==> rest[|rest| - 1] == a[|a| - 1];
  }

  /** The case the stripping exists for: a stem, an id stamp of five or more
      digits or underscores, a dot and an extension lose exactly the stamp,
      and the stem and the extension are each stripped on their own (a stem
      such as `v2-notes` keeps its digit).  An extension the stripping leaves
      alone (`png`, and `mp3` or `mp4` too) is kept.  A stem ending in
      `[0-9_]` is not run-closed: its last run joins the stamp's run. */
  lemma {:induction false} StampDropped(stem: string, stamp: string, ext: string)
    requires RunClosed(stem)
    requires |stamp| >= MinRun && forall k :: 0 <= k < |stamp| ==> IsIdChar(stamp[k])
    ensures StripIds(stem + stamp + "." + ext) == StripIds(stem) + "." + StripIds(ext)
  {
    var t := stamp + ("." + ext);
    var x := StripIds(ext);
    var y := StripIds(stem);
    assert stem + stamp + "." + ext == stem + t;
    assert y + ("." + x) == y + "." + x;
    calc {
      StripIds(stem + t);
      { StripIdsIsStripRef(stem + t); }
      StripRef(stem + t);
      { StripRefSplit(stem, t); }
      StripRef(stem) + StripRef(t);
      { StripIdsIsStripRef(stem); }
      y + StripRef(t);
      { StripRefStamp(stamp, ext); StripIdsIsStripRef(ext); }
      y + ("." + x);
    }
  }

  /** The reference deletes a stamp in front of a dot and resumes after it. */
  lemma {:induction false} StripRefStamp(stamp: string, ext: string)
    requires |stamp| >= MinRun && AllId(stamp, 0, |stamp|)
    ensures StripRef(stamp + ("." + ext)) == "." + StripRef(ext)
  {
    var t := stamp + ("." + ext);
    StampShape(stamp, ext);
    StripRefDropDot(t, |stamp|, ext);
  }

  /** The reference on a deleted run followed by a dot and `rest`. */
  lemma {:induction false} StripRefDropDot(t: string, n: nat, rest: string)
    requires 0 < n < |t| && IsIdChar(t[0]) && n == RunLen(t, 0) && n >= MinRun
    requires t[n] == '.' && t[n + 1..] == rest
    ensures StripRef(t) == "." + StripRef(rest)
  {
    FrontChunkDroppedDot(t, n);
    StripRefUnfold(t, Chunk(".", n + 1));
  }

  /** Where the pieces of a stamp, a dot and an extension sit: the stamp is
      the whole leading run, and the extension follows the dot. */
  lemma StampShape(stamp: string, ext: string)
    requires |stamp| >= MinRun && forall k :: 0 <= k < |stamp| ==> IsIdChar(stamp[k])
    ensures var t := stamp + ("." + ext);
      && IsIdChar(t[0]) && RunLen(t, 0) == |stamp|
      && t[|stamp|] == '.' && t[|stamp| + 1..] == ext
  {
    var t := stamp + ("." + ext);
    RunLenOfConcat(stamp, "." + ext);
    assert t[0] == stamp[0];
    assert t[|stamp| + 1..] == ext;
  }

  /** A stamped upload name loses its stamp. */
  lemma {:induction false} StripExample(name: string)
    requires name == "image_1693000000000_0.png"
    ensures StripIds(name) == "image.png"
  {
    var stem, stamp, ext := name[..5], name[5..21], name[22..];
    assert stem + stamp + "." + ext == name by {
      assert name == name[..5] + name[5..21] + [name[21]] + name[22..];
    }
    ExampleParts(stem, stamp, ext);
    StampDropped(stem, stamp, ext);
  }

  /** The pieces of the stamped example name. */
  lemma {:induction false} ExampleParts(stem: string, stamp: string, ext: string)
    requires stem == "image" && stamp == "_1693000000000_0" && ext == "png"
    ensures RunClosed(stem) && StripIds(stem) == stem && StripIds(ext) == ext
    ensures |stamp| >= MinRun && forall k :: 0 <= k < |stamp| ==> IsIdChar(stamp[k])
  {
    NoIdsKept(stem);
    NoIdsKept(ext);
  }

  /** A string without id characters is run-closed and left alone. */
  lemma {:induction false} NoIdsKept(s: string)
    requires NoIds(s)
    ensures RunClosed(s) && StripIds(s) == s
  {
    StripRefNoIds(s);
    StripIdsIsStripRef(s);
  }

  /** A stem with a digit inside keeps it: `v2-notes_1693000000000.png`
      becomes `v2-notes.png`. */
  lemma {:induction false} DigitStemExample(name: string)
    requires name == "v2-notes_1693000000000.png"
    ensures StripIds(name) == "v2-notes.png"
  {
    var stem, stamp, ext := name[..8], name[8..22], name[23..];
    assert stem + stamp + "." + ext == name by {
      assert name == name[..8] + name[8..22] + [name[22]] + name[23..];
    }
    DigitStemParts(stem, stamp, ext);
    StampDropped(stem, stamp, ext);
  }

  /** The pieces of the digit-stem example; the lone `2` is kept. */
  lemma {:induction false} DigitStemParts(stem: string, stamp: string, ext: string)
    requires stem == "v2-notes" && stamp == "_1693000000000" && ext == "png"
    ensures RunClosed(stem) && StripIds(stem) == stem && StripIds(ext) == ext
    ensures |stamp| >= MinRun && forall k :: 0 <= k < |stamp| ==> IsIdChar(stamp[k])
  {
    LoneIdCharKept(stem[..1], stem[1..2], stem[2..]);
    assert stem == stem[..1] + stem[1..2] + stem[2..];
    NoIdsKept(ext);
  }

  /** A single `[0-9_]` between characters outside the class is kept. */
  lemma {:induction false} LoneIdCharKept(a: string, d: string, b: string)
    requires NoIds(a) && NoIds(b) && |d| == 1 && IsIdChar(d[0])
    ensures StripIds(a + d + b) == a + d + b
  {
    var t := d + b;
    RunLenOfConcat(d, b);
    StripRefKeepHead(t);
    assert t[1..] == b && [t[0]] == d;
    StripRefNoIds(b);
    StripRefNoIdsPrefix(a, t);
    AppendAssoc(a, d, b);
    StripIdsIsStripRef(a + d + b);
  }

  /** A stem that ends in `[0-9_]` is not run-closed, and its last run joins
      the stamp: `IMG_1234_1693000000000_0.png` becomes `IMG.png`. */
  lemma {:induction false} MergedStampExample(name: string)
    requires name == "IMG_1234_1693000000000_0.png"
    ensures StripIds(name) == "IMG.png"
  {
    var stem, stamp, ext := name[..3], name[3..24], name[25..];
    assert stem + stamp + "." + ext == name by {
      assert name == name[..3] + name[3..24] + [name[24]] + name[25..];
    }
    MergedParts(name);
    StampDropped(stem, stamp, ext);
    assert StripIds(name) == stem + "." + ext;
  }

  /** A run of `[0-9_]` followed by a character that is neither in the class
      nor a dot is kept whatever its length: the regex needs the dot or the
      end right after the run. */
  lemma {:induction false} RunBeforeOtherKept(run: string, rest: string)
    requires |run| > 0 && forall k :: 0 <= k < |run| ==> IsIdChar(run[k])
    requires |rest| > 0 && !IsIdChar(rest[0]) && rest[0] != '.'
    ensures StripIds(run + rest) == run + StripIds(rest)
  {
    var u := run + rest;
    RunLenOfConcat(run, rest);
    assert u[0] == run[0] && u[|run|] == rest[0];
    StripRefKeptRun(u);
    assert u[..|run|] == run && u[|run|..] == rest;
    StripIdsIsStripRef(u);
    StripIdsIsStripRef(rest);
  }

  /** A stamp in front of the name is kept, since a letter follows it:
      `1693000000000_photo.png` is left as it is. */
  lemma {:induction false} KeptStampExample(name: string)
    requires name == "1693000000000_photo.png"
    ensures StripIds(name) == name
  {
    var run, rest := name[..14], name[14..];
    assert run + rest == name;
    NoIdsKept(rest);
    RunBeforeOtherKept(run, rest);
  }

  /** The pieces of the merged example: the stem's `_1234` is part of the
      stamp's run. */
  lemma {:induction false} MergedParts(name: string)
    requires name == "IMG_1234_1693000000000_0.png"
    ensures RunClosed(name[..3]) && StripIds(name[..3]) == name[..3]
    ensures StripIds(name[25..]) == name[25..]
    ensures forall k :: 3 <= k < 24 ==> IsIdChar(name[k])
  {
    NoIdsKept(name[..3]);
    NoIdsKept(name[25..]);
  }

  /** A stamped audio upload loses its stamp too: the digit of `mp3` is a run
      of one, which the stripping keeps. */
  lemma {:induction false} StripAudioExample(name: string)
    requires name == "song_1693000000000.mp3"
    ensures StripIds(name) == "song.mp3"
  {
    var stem, stamp, ext := name[..4], name[4..18], name[19..];
    assert stem + stamp + "." + ext == name by {
      assert name == name[..4] + name[4..18] + [name[18]] + name[19..];
    }
    AudioParts(stem, stamp, ext);
    StampDropped(stem, stamp, ext);
  }

  /** The pieces of the stamped audio example; `mp3` survives the stripping. */
  lemma {:induction false} AudioParts(stem: string, stamp: string, ext: string)
    requires stem == "song" && stamp == "_1693000000000" && ext == "mp3"
    ensures RunClosed(stem) && StripIds(stem) == stem && StripIds(ext) == ext
    ensures |stamp| >= MinRun && forall k :: 0 <= k < |stamp| ==> IsIdChar(stamp[k])
  {
    DigitLastKept(ext);
    NoIdsKept(stem);
  }

  /** A name of two non-id characters and a digit, such as `mp3`, is left
      alone by the stripping. */
  lemma {:induction false} DigitLastKept(ext: string)
    requires |ext| == 3 && NoIds(ext[..2]) && IsIdChar(ext[2])
    ensures StripIds(ext) == ext
  {
    StripIdsIsStripRef(ext);
    var digit := ext[2..];
    OneIdCharKept(digit);
    StripRefNoIdsPrefix(ext[..2], digit);
    assert ext == ext[..2] + digit;
  }

  /** A lone `[0-9_]` character is a run of one, which the stripping keeps. */
  lemma {:induction false} OneIdCharKept(d: string)
    requires |d| == 1 && IsIdChar(d[0])
    ensures StripRef(d) == d
  {
    assert RunLen(d, 1) == 0;
    FrontChunkKept(d);
    StripRefUnfold(d, Chunk(d, 1));
    assert d[1..] == "";
  }


  /** `r` is the last component of `path`: a suffix without a slash, with a
      slash right before it unless it is the whole path. */
  ghost predicate LastComponent(path: string, r: string) {
    && '/' !in r
    && |r| <= |path| && path[|path| - |r|..] == r
    && (|r| == |path| || path[|path| - |r| - 1] == '/')
  }

  /** `e` is the extension of `name`: present exactly when the name has a
      dot, and then the text after its last dot. */
  ghost predicate ExtensionOf(name: string, e: Option<string>) {
    && (e.Some? <==> '.' in name)
    && (e.Some? ==>
          && '.' !in e.value
          && |e.value| < |name|
          && name[|name| - |e.value| - 1] == '.'
          && name[|name| - |e.value|..] == e.value)
  }

  /** `path.substring(path.lastIndexOf('/') + 1)`: the text after the last
      slash, or the whole path when it has none. */
  function BaseName(path: string): (r: string)
    ensures LastComponent(path, r)
  {
    var k := LastIndexOf(path, '/');
    path[k + 1..]
  }

  /** The extension: the text after the last dot of the display name, kept
      as written; undefined when the name has no dot. */
  function ExtName(name: string): (r: Option<string>)
    ensures ExtensionOf(name, r)
  {
    var k := LastIndexOf(name, '.');
    if k == -1 then None
    else
      Some(name[k + 1..])
  }

  /** `normalizeDataItem` for a record whose path is a string. */
  function NormalizeItem(path: string): (r: Item)
    ensures r.path == path && r.ranges.None?
    ensures LastComponent(path, r.originalName)
    ensures NonId(r.name) == NonId(r.originalName) && |r.name| <= |r.originalName|
    ensures ExtensionOf(r.name, r.extname)
  {
    var original := BaseName(path);
    var name := StripIds(original);
    StripIdsKeepsNonId(original);
    Item(path, original, name, ExtName(name), None)
  }

  /** What a normalised item holds: the original name is the path's text after
      its last slash, the display name is that with the id runs stripped (and
      no other character touched), and the extension is the text after the
      display name's last dot, present exactly when it has one. */
  lemma {:induction false} NormalizeItemFacts(path: string)
    ensures var it := NormalizeItem(path);
      && it.path == path
      && '/' !in it.originalName
      && path[|path| - |it.originalName|..] == it.originalName
      && (|it.originalName| == |path| || path[|path| - |it.originalName| - 1] == '/')
      && it.name == StripRef(it.originalName)
      && NonId(it.name) == NonId(it.originalName)
      && (it.extname.Some? <==> '.' in it.name)
      && it.ranges.None?
  {
    var it := NormalizeItem(path);
    StripIdsIsStripRef(it.originalName);
    StripIdsKeepsNonId(it.originalName);
  }

  /** Normalising the display name again gives back the same display name
      and extension: a normalised name is a fixed point. */
  lemma {:induction false} NormalizeIdempotent(path: string)
    ensures var it := NormalizeItem(path);
      var again := NormalizeItem(it.name);
      again.name == it.name && again.extname == it.extname
  {
    var it := NormalizeItem(path);
    var original := BaseName(path);
    StripIdsKeepsNonId(original);
    NoSlashNonId(original);
    NoSlashNonId(it.name);
    assert BaseName(it.name) == it.name;
    StripIdsIdempotent(original);
  }

  /** A string has a slash exactly when its non-id characters have one. */
  lemma {:induction false} NoSlashNonId(s: string)
    ensures '/' in s <==> '/' in NonId(s)
    decreases |s|
  {
    if |s| > 0 {
      NoSlashNonId(s[1..]);
      assert s == [s[0]] + s[1..];
    }
  }

  /** The base name of a path is its last component. */
  lemma {:induction false} BaseNameOfComponent(dir: string, file: string)
    requires '/' !in file
    ensures BaseName(dir + "/" + file) == file
  {
    var p := dir + "/" + file;
    LastIndexOfJoin(dir, '/', file);
    assert p[|dir| + 1..] == file;
  }

  /** The extension of a name is the text after its last dot. */
  lemma {:induction false} ExtNameOfSuffix(stem: string, ext: string)
    requires '.' !in ext
    ensures ExtName(stem + "." + ext) == Some(ext)
  {
    var n := stem + "." + ext;
    LastIndexOfJoin(stem, '.', ext);
    assert n[|stem| + 1..] == ext;
  }

  /** Normalising the path of a stamped upload: the original name is the
      last component, the display name drops the stamp (and strips the stem
      on its own), and the extension is what follows the dot. */
  lemma {:induction false} NormalizeStamped(dir: string, stem: string, stamp: string, ext: string)
    requires RunClosed(stem) && StripIds(ext) == ext && '/' !in stem && '/' !in ext && '.' !in ext
    requires |stamp| >= MinRun && forall k :: 0 <= k < |stamp| ==> IsIdChar(stamp[k])
    ensures var it := NormalizeItem(dir + "/" + stem + stamp + "." + ext);
      && it.originalName == stem + stamp + "." + ext
      && it.name == StripIds(stem) + "." + ext
      && it.extname == Some(ext)
  {
    var file := stem + stamp + "." + ext;
    assert '/' !in file;
    assert dir + "/" + stem + stamp + "." + ext == dir + "/" + file;
    BaseNameOfComponent(dir, file);
    StampDropped(stem, stamp, ext);
    ExtNameOfSuffix(StripIds(stem), ext);
  }
}

=== FILE: picker.dfy ===
/** The picker's state and its event handlers (the `App` component of
    src/index.tsx): the search box, the tab strip, the keyboard handlers, the
    item clicks and the close path.  Every change of the data, the query or the
    tab re-runs the search effect, as React does for the effect's dependency
    list. */
module Picker {
  import opened JsString
  import opened Normalize
  import opened Category
  import opened Search
  import Cursor
  import AssetLink
  import Highlight

  /** The component state: `visible`, `inputValue`, `activeTab`, `data`,
      `currentListData` and `activeIdx`.  The loading flag is not part of
      the model. */
  datatype Session = Session(
    visible: bool,
    query: string,
    tab: Tab,
    data: seq<Item>,
    list: seq<Item>,
    cursor: int)

  /** What reaches the handlers.  `KeyDown` is the search box's `onKeyDown`
      (by `code`), `KeyUp` the key-up handlers (by `key`), `Loaded` the end of
      the asset listing and `Shown` the host's "UI visible" notification. */
  datatype Event =
    | Input(text: string)
    | TabClick(name: Tab)
    | KeyDown(code: string, ctrl: bool)
    | KeyUp(key: string, ctrl: bool)
    | ItemClick(index: nat)
    | OutsideClick
    | Loaded(paths: seq<string>)
    | Shown

  /** What the picker asks of the host. */
  datatype Action =
    | NoAction
    | OpenExternal(url: string)
    | InsertText(text: Option<string>)

  /** The cursor is on the list, or at 0 when the list is empty, and the list
      holds at most one window of entries. */
  predicate Inv(s: Session) {
    && |s.list| <= WindowSize
    && 0 <= s.cursor
    && (s.cursor < |s.list| || s.cursor == 0)
  }

  /** The search effect applied to the state. */
  function Refresh(s: Session, m: Matcher): (r: Session)
    requires Sound(m)
    ensures r.cursor == 0
    ensures r.visible == s.visible && r.query == s.query && r.tab == s.tab
    ensures |s.list| <= WindowSize ==> |r.list| <= WindowSize
  {
    var o := RunSearch(s.data, s.query, s.tab, s.list, m);
    s.(data := o.data, list := o.list, cursor := o.cursor)
  }

  /** A handler's state change followed by the effect when the query or the
      tab changed (the data does not change here). */
  function Settle(before: Session, after: Session, m: Matcher): (r: Session)
    requires Sound(m)
    ensures r.visible == after.visible && r.query == after.query && r.tab == after.tab
    ensures after.query != before.query || after.tab != before.tab ==> r.cursor == 0 && r == Refresh(after, m)
    ensures after.query == before.query && after.tab == before.tab ==> r == after
  {
    if after.query != before.query || after.tab != before.tab then Refresh(after, m) else after
  }

  /** `closeUI`: hide, and go back to the first tab. */
  function CloseUI(s: Session): (r: Session)
    ensures !r.visible && r.tab == Tabs[0]
    ensures r.query == s.query && r.data == s.data && r.list == s.list && r.cursor == s.cursor
  {
    s.(visible := false, tab := "all")
  }

  /** `onSelect` for an item: in the full-feature pane the file is opened,
      otherwise the picker closes, clears the query and inserts the link. */
  function Select(s: Session, it: Item, asFullFeatures: bool, m: Matcher): (r: (Session, Action))
    requires Sound(m)
    ensures asFullFeatures ==> r.0 == s && r.1 == OpenExternal("file://" + it.path)
    ensures !asFullFeatures ==>
      && !r.0.visible && r.0.tab == "all" && r.0.query == ""
      && r.1 == InsertText(AssetLink.MakeMdAssetLink(it.name, it.path, it.extname))
  {
    if asFullFeatures then (s, OpenExternal("file://" + it.path))
    else
      var closed := CloseUI(s).(query := "");
      (Settle(s, closed, m), InsertText(AssetLink.MakeMdAssetLink(it.name, it.path, it.extname)))
  }

  /** The entry under the cursor (`currentListData?.[activeIdx]`). */
  function Active(s: Session): (r: Option<Item>)
    ensures r.Some? <==> 0 <= s.cursor < |s.list|
    ensures r.Some? ==> r.value == s.list[s.cursor]
  {
    if 0 <= s.cursor < |s.list| then Some(s.list[s.cursor]) else None
  }

  /** One event.  `asFullFeatures` is whether the page is in full-feature
      mode (a class on the document body). */
  function Step(s: Session, ev: Event, asFullFeatures: bool, m: Matcher): (r: (Session, Action))
    requires Sound(m)
    requires ev.ItemClick? ==> ev.index < |s.list|
    ensures Inv(s) ==> Inv(r.0)
    ensures r.0.query != s.query || r.0.tab != s.tab || ev.Loaded? ==> r.0.cursor == 0
  {
    match ev
    case Input(text) => (Settle(s, s.(query := text), m), NoAction)
    case TabClick(name) => (Settle(s, s.(tab := name), m), NoAction)
    case KeyDown(code, ctrl) =>
      var isArrowUp := code == "ArrowUp" || (ctrl && code == "KeyP");
      var isArrowDown := code == "ArrowDown" || (ctrl && code == "KeyN");
      if isArrowDown then (s.(cursor := Cursor.Down(s.cursor, |s.list|)), NoAction)
      else if isArrowUp then (s.(cursor := Cursor.Up(s.cursor, |s.list|)), NoAction)
      else (s, NoAction)
    case KeyUp(key, ctrl) =>
      if key == "Enter" then
        match Active(s)
        case None => (s, NoAction)
        case Some(it) => Select(s, it, asFullFeatures, m)
      else if key == "Escape" then
        if s.query != "" then (Settle(s, s.(query := ""), m), NoAction)
        else (Settle(s, CloseUI(s), m), NoAction)
      else if ctrl && key == "Tab" then (Settle(s, s.(tab := NextTab(s.tab)), m), NoAction)
      else (s, NoAction)
    case ItemClick(index) => Select(s, s.list[index], asFullFeatures, m)
    case OutsideClick => (Settle(s, CloseUI(s), m), NoAction)
    case Loaded(paths) =>
      var data := seq(|paths|, k requires 0 <= k < |paths| => NormalizeItem(paths[k]));
      (Refresh(s.(data := data), m), NoAction)
    case Shown => (s.(visible := true), NoAction)
  }

  /** Escape first clears a non-empty query and otherwise closes the picker;
      Ctrl+Tab moves to the next tab; a click outside closes; the host's
      notification shows the picker and changes nothing else. */
  lemma StepEvents(s: Session, ev: Event, asFullFeatures: bool, m: Matcher)
    requires Sound(m)
    requires ev.ItemClick? ==> ev.index < |s.list|
    ensures var r := Step(s, ev, asFullFeatures, m);
      && (ev.KeyUp? && ev.key == "Escape" && s.query != "" ==>
            r.0.query == "" && r.0.visible == s.visible && r.0.tab == s.tab)
      && (ev.KeyUp? && ev.key == "Escape" && s.query == "" ==>
            !r.0.visible && r.0.tab == "all" && r.1 == NoAction)
      && (ev == KeyUp("Tab", true) ==> r.0.tab == NextTab(s.tab))
      && (ev.OutsideClick? ==> !r.0.visible && r.0.tab == "all")
      && (ev.Shown? ==> r.0 == s.(visible := true))
  {
  }

  /** The state after mounting: visible, empty query, first tab, nothing
      loaded yet, and the effect's first run over the empty data. */
  function Mount(m: Matcher): (s: Session)
    requires Sound(m)
    ensures Inv(s) && s.visible && s.tab == "all" && s.list == [] && s.cursor == 0
  {
    Refresh(Session(true, "", Tabs[0], [], [], Cursor.Reset), m)
  }

  /** Typing a new query runs the search on it, over the current tab and the
      list shown before: the session takes the search's data and list, and
      the cursor goes back to the top. */
  lemma TypingRunsSearch(s: Session, q: string, asFullFeatures: bool, m: Matcher)
    requires Sound(m) && q != s.query
    ensures var r := Step(s, Input(q), asFullFeatures, m).0;
      var o := RunSearch(s.data, q, s.tab, s.list, m);
      && r.query == q && r.tab == s.tab && r.visible == s.visible
      && r.data == o.data && r.list == o.list && r.cursor == 0
  {
  }

  /** Clicking another tab runs the search for the current query over that
      tab. */
  lemma TabClickRunsSearch(s: Session, t: Tab, asFullFeatures: bool, m: Matcher)
    requires Sound(m) && t != s.tab
    ensures var r := Step(s, TabClick(t), asFullFeatures, m).0;
      var o := RunSearch(s.data, s.query, t, s.list, m);
      && r.query == s.query && r.tab == t && r.visible == s.visible
      && r.data == o.data && r.list == o.list && r.cursor == 0
  {
  }

  /** Arrow down then arrow up (or the reverse) leaves the state as it was,
      whenever the cursor is on a non-empty list. */
  lemma ArrowsCancel(s: Session, asFullFeatures: bool, m: Matcher)
    requires Sound(m) && 0 <= s.cursor < |s.list|
    ensures Step(Step(s, KeyDown("ArrowDown", false), asFullFeatures, m).0, KeyDown("ArrowUp", false), asFullFeatures, m).0 == s
    ensures Step(Step(s, KeyDown("ArrowUp", false), asFullFeatures, m).0, KeyDown("ArrowDown", false), asFullFeatures, m).0 == s
  {
    Cursor.UpDownInverse(s.cursor, |s.list|);
  }

  /** On an empty list the arrows change nothing. */
  lemma ArrowsOnEmptyList(s: Session, code: string, ctrl: bool, asFullFeatures: bool, m: Matcher)
    requires Sound(m) && s.list == []
    ensures Step(s, KeyDown(code, ctrl), asFullFeatures, m) == (s, NoAction)
  {
  }

  /** Four presses of Ctrl+Tab bring the tab back, whatever else they
      recompute. */
  lemma CtrlTabRoundTrip(s: Session, asFullFeatures: bool, m: Matcher)
    requires Sound(m) && s.tab in Tabs
    ensures var ev := KeyUp("Tab", true);
      var s1 := Step(s, ev, asFullFeatures, m).0;
      var s2 := Step(s1, ev, asFullFeatures, m).0;
      var s3 := Step(s2, ev, asFullFeatures, m).0;
      Step(s3, ev, asFullFeatures, m).0.tab == s.tab
  {
    var ev := KeyUp("Tab", true);
    var s1 := Step(s, ev, asFullFeatures, m).0;
    var s2 := Step(s1, ev, asFullFeatures, m).0;
    var s3 := Step(s2, ev, asFullFeatures, m).0;
    StepEvents(s, ev, asFullFeatures, m);
    StepEvents(s1, ev, asFullFeatures, m);
    StepEvents(s2, ev, asFullFeatures, m);
    StepEvents(s3, ev, asFullFeatures, m);
    NextTabCycle(s.tab);
  }

  /** Enter on an entry outside the full-feature pane closes the picker,
      clears the query and inserts that entry's link. */
  lemma EnterInsertsActive(s: Session, m: Matcher)
    requires Sound(m) && 0 <= s.cursor < |s.list|
    ensures var it := s.list[s.cursor];
      var r := Step(s, KeyUp("Enter", false), false, m);
      && r.1 == InsertText(AssetLink.MakeMdAssetLink(it.name, it.path, it.extname))
      && !r.0.visible && r.0.query == "" && r.0.tab == "all"
  {
  }

  /** Clicking an entry asks the host for what Enter asks with the cursor on
      that entry. */
  lemma ClickActsAsEnter(s: Session, k: nat, ctrl: bool, asFullFeatures: bool, m: Matcher)
    requires Sound(m) && k < |s.list|
    ensures Step(s, ItemClick(k), asFullFeatures, m).1
         == Step(s.(cursor := k), KeyUp("Enter", ctrl), asFullFeatures, m).1
  {
  }

  /** Ranges stay on the shared items after a search, and a query made only
      of spaces is non-empty: the blank-query list then shows its first entry
      highlighted with the ranges of the earlier search. */
  lemma BlankQueryKeepsStaleRanges(data: seq<Item>, query: string, tab: Tab, prev: seq<Item>, m: Matcher)
    requires Sound(m) && |query| > 0 && forall k :: 0 <= k < |query| ==> IsWhitespace(query[k])
    requires var typed := Filter(data, tab);
      |typed| > 0 && typed[0].ranges.Some? && |typed[0].ranges.value| > 0
    ensures var it := RunSearch(data, query, tab, prev, m).list[0];
      && it == Filter(data, tab)[0]
      && Highlight.HighlightName(it.name, it.ranges, query)
         == Highlight.Join(Highlight.Segments(it.name, it.ranges.value))
  {
  }
}

=== FILE: search.dfy ===
/** The search effect of src/index.tsx: on every change of the data, the query
    or the tab it resets the cursor, filters by tab, and either shows the first
    entries or asks the fuzzy matcher and shows its hits with their highlight
    ranges.  The fuzzy matcher (uFuzzy) is not modelled: it is a parameter. */
module Search {
  import opened JsString
  import opened Normalize
  import opened Category
  import Cursor

  /** The number of entries the list shows. */
  const WindowSize: nat := 8

  /** `result[1]` of the matcher: the haystack positions of the hits and, per
      hit, its flat list of range boundaries. */
  datatype MatchInfo = MatchInfo(idx: seq<int>, ranges: seq<seq<int>>)

  /** The matcher: haystack and query in, `result[1]` out (undefined when it
      gives no info). */
  type Matcher = (seq<string>, string) -> Option<MatchInfo>

  /** Every hit points into the haystack. */
  predicate Fits(info: MatchInfo, n: nat) {
    forall k :: 0 <= k < |info.idx| ==> 0 <= info.idx[k] < n
  }

  /** What the source relies on from the matcher: hits point into the haystack
      it was given (otherwise `typedData[idx]` is undefined and the effect
      throws). */
  ghost predicate Sound(m: Matcher) {
    forall hay: seq<string>, q: string :: m(hay, q).Some? ==> Fits(m(hay, q).value, |hay|)
  }

  /** `ranges[n]`, undefined past the end of the list. */
  function RangesAt(info: MatchInfo, n: nat): Option<seq<int>> {
    if n < |info.ranges| then Some(info.ranges[n]) else None
  }

  /** No later entry of `xs` repeats entry `n`. */
  predicate LastWrite<T(==)>(xs: seq<T>, n: nat)
    requires n < |xs|
  {
    forall m :: n < m < |xs| ==> xs[m] != xs[n]
  }

  /** Two values are the same asset, whatever ranges each carries. */
  predicate SameAsset(a: Item, b: Item) {
    a == b.(ranges := a.ranges)
  }

  /** The `r.ranges = ranges[n]` assignments of the `idx.map` callback, in
      order, on the shared item objects: position `targets[n]` gets `rs[n]`. */
  function AttachRanges(data: seq<Item>, targets: seq<nat>, rs: seq<Option<seq<int>>>): (d: seq<Item>)
    requires |targets| == |rs|
    requires forall n :: 0 <= n < |targets| ==> targets[n] < |data|
    ensures |d| == |data|
    ensures forall j :: 0 <= j < |data| ==> SameAsset(d[j], data[j])
    ensures forall j :: 0 <= j < |data| && j !in targets ==> d[j] == data[j]
    ensures forall n :: 0 <= n < |targets| && LastWrite(targets, n) ==> d[targets[n]].ranges == rs[n]
    decreases |targets|
  {
    if |targets| == 0 then data
    else
      var j := targets[0];
      var d := AttachRanges(data[j := data[j].(ranges := rs[0])], targets[1..], rs[1..]);
      assert forall n :: 0 < n < |targets| ==> targets[1..][n - 1] == targets[n];
      assert forall n :: 0 < n < |targets| && LastWrite(targets, n) ==> LastWrite(targets[1..], n - 1);
      d
  }

  /** The display names of a list, the matcher's haystack. */
  function Names(items: seq<Item>): (r: seq<string>)
    ensures |r| == |items|
    ensures forall k :: 0 <= k < |items| ==> r[k] == items[k].name
  {
    seq(|items|, k requires 0 <= k < |items| => items[k].name)
  }

  /** The first `n` entries, or all of them when there are fewer. */
  function Take<T>(s: seq<T>, n: nat): (r: seq<T>)
    ensures |r| == if |s| < n then |s| else n
    ensures r <= s
  {
    if |s| <= n then s else s[..n]
  }

  /** One run of the effect: the data (whose items may now carry new ranges),
      the list to show, and the cursor. */
  datatype Outcome = Outcome(data: seq<Item>, list: seq<Item>, cursor: int)

  /** What `ShowHits` needs of its arguments: `typed` is the tab's items,
      sitting at the increasing positions `ix` of the data, and the hits point
      into `typed`. */
  predicate HitsFit(data: seq<Item>, typed: seq<Item>, ix: seq<nat>, info: MatchInfo) {
    && |typed| == |ix|
    && (forall k :: 0 <= k < |ix| ==> ix[k] < |data| && typed[k] == data[ix[k]])
    && (forall k, l :: 0 <= k < l < |ix| ==> ix[k] < ix[l])
    && Fits(info, |typed|)
  }

  /** The data position of every hit. */
  function HitTargets(ix: seq<nat>, info: MatchInfo): (t: seq<nat>)
    requires Fits(info, |ix|)
    ensures |t| == |info.idx|
    ensures forall n :: 0 <= n < |t| ==> t[n] == ix[info.idx[n]]
  {
    seq(|info.idx|, n requires 0 <= n < |info.idx| => ix[info.idx[n]])
  }

  /** The range list handed to every hit. */
  function HitRanges(info: MatchInfo): (rs: seq<Option<seq<int>>>)
    ensures |rs| == |info.idx|
    ensures forall n :: 0 <= n < |rs| ==> rs[n] == RangesAt(info, n)
  {
    seq(|info.idx|, n requires 0 <= n < |info.idx| => RangesAt(info, n))
  }

  /** The hits of the matcher on the tab's items: every hit gets its ranges
      attached (on the shared item, so in the data too), and the first
      `WindowSize` hits are shown in the matcher's order. */
  function ShowHits(data: seq<Item>, typed: seq<Item>, ix: seq<nat>, info: MatchInfo): (o: Outcome)
    requires HitsFit(data, typed, ix, info)
    ensures o.cursor == 0
    ensures |o.list| == (if |info.idx| < WindowSize then |info.idx| else WindowSize)
    ensures |o.data| == |data|
  {
    var targets := HitTargets(ix, info);
    var d := AttachRanges(data, targets, HitRanges(info));
    var count := if |info.idx| < WindowSize then |info.idx| else WindowSize;
    Outcome(d, seq(count, n requires 0 <= n < count => d[targets[n]]), Cursor.Reset)
  }

  /** The shown entries are the hits, in the matcher's order, and the data
      keeps its assets (only ranges change). */
  lemma ShowHitsItems(data: seq<Item>, typed: seq<Item>, ix: seq<nat>, info: MatchInfo)
    requires HitsFit(data, typed, ix, info)
    ensures var o := ShowHits(data, typed, ix, info);
      && (forall n :: 0 <= n < |o.list| ==> SameAsset(o.list[n], typed[info.idx[n]]))
      && (forall j :: 0 <= j < |data| ==> SameAsset(o.data[j], data[j]))
  {
    var o := ShowHits(data, typed, ix, info);
    var targets := HitTargets(ix, info);
    forall n | 0 <= n < |o.list|
      ensures SameAsset(o.list[n], typed[info.idx[n]])
    {
      assert typed[info.idx[n]] == data[targets[n]];
    }
  }

  /** A shown hit that the matcher does not repeat later carries its own
      range list. */
  lemma ShowHitsRanges(data: seq<Item>, typed: seq<Item>, ix: seq<nat>, info: MatchInfo)
    requires HitsFit(data, typed, ix, info)
    ensures var o := ShowHits(data, typed, ix, info);
      forall n :: 0 <= n < |o.list| && LastWrite(info.idx, n) ==> o.list[n].ranges == RangesAt(info, n)
  {
    var targets := HitTargets(ix, info);
    LastWriteThroughIndices(ix, info.idx, targets);
  }

  /** The search effect.  A blank query (empty once trimmed) shows the first
      entries of the tab; otherwise the matcher runs on the tab's names, and
      when it gives no info the previous list stays. */
  function RunSearch(data: seq<Item>, query: string, tab: Tab, prev: seq<Item>, m: Matcher): (o: Outcome)
    requires Sound(m)
    ensures o.cursor == 0
    ensures (forall k :: 0 <= k < |query| ==> IsWhitespace(query[k])) ==>
      o.data == data && o.list == Take(Filter(data, tab), WindowSize)
    ensures !(forall k :: 0 <= k < |query| ==> IsWhitespace(query[k])) ==>
      var typed := Filter(data, tab);
      match m(Names(typed), query)
      case None => o.data == data && o.list == prev
      case Some(info) =>
        && |o.list| == (if |info.idx| < WindowSize then |info.idx| else WindowSize)
        && (forall n :: 0 <= n < |o.list| ==> 0 <= info.idx[n] < |typed| && SameAsset(o.list[n], typed[info.idx[n]]))
        && (forall n :: 0 <= n < |o.list| && LastWrite(info.idx, n) ==> o.list[n].ranges == RangesAt(info, n))
        && |o.data| == |data|
        && (forall j :: 0 <= j < |data| ==> SameAsset(o.data[j], data[j]))
  {
    var typed := Filter(data, tab);
    TrimEmptyIffAllWhitespace(query);
    if Trim(query) == "" then
      Outcome(data, Take(typed, WindowSize), Cursor.Reset)
    else
      match m(Names(typed), query)
      case None => Outcome(data, prev, Cursor.Reset)
      case Some(info) =>
        var ix := FilterIndices(data, tab);
        FilterByIndices(data, tab);
        assert HitsFit(data, typed, ix, info);
        ShowHitsItems(data, typed, ix, info);
        ShowHitsRanges(data, typed, ix, info);
        ShowHits(data, typed, ix, info)
  }

  /** Positions that are strictly increasing are distinct, so a hit that is
      not repeated later in `idx` is not repeated later in `targets`. */
  lemma LastWriteThroughIndices(ix: seq<nat>, idx: seq<int>, targets: seq<nat>)
    requires forall k, l :: 0 <= k < l < |ix| ==> ix[k] < ix[l]
    requires forall n :: 0 <= n < |idx| ==> 0 <= idx[n] < |ix|
    requires |targets| == |idx|
    requires forall n :: 0 <= n < |idx| ==> targets[n] == ix[idx[n]]
    ensures forall n :: 0 <= n < |idx| && LastWrite(idx, n) ==> LastWrite(targets, n)
  {
    forall n, m | 0 <= n < m < |idx| && idx[m] != idx[n]
      ensures targets[m] != targets[n]
    {
      if idx[n] < idx[m] {
        assert ix[idx[n]] < ix[idx[m]];
      } else {
        assert ix[idx[m]] < ix[idx[n]];
      }
    }
  }
}
